=== FILE: README.md ===
# ColorGrading GPU resource layer in Dafny

This project models the OpenGL resource layer of ColorGrading, an interactive
colour-grading tool. The layer has three parts, one module each:

- **Formats**: the format catalog. It maps every colour-buffer format to a
  channel layout (`highLevelFormat`) and to a per-channel element type
  (`formatDataType`), and maps a layout to its channel count
  (`highLevelFormatChannels`). Each lookup is a total function. An illegal cast
  is a separate input value that leads to the error report and the fallback
  value. A second, independent description of every format is what its *name*
  says: channel prefix, bit depth and kind. The lookups are proved against it.
- **Textures** and **Storage**: the buffer objects.
  - Colour textures come in three shapes: 2D, 3D and cube map. The C++ class
    hierarchy becomes one class, `ColorBuffer`, tagged with a `Shape`.
  - Render buffers and shader-storage buffers are separate classes.
  - Each operation is written twice:
    - once as a pure function from the object's state to its effect: the new
      state, the driver calls issued, and how the call ended;
    - once as a class method that follows the C++ code loop for loop and is
      proved to have exactly that effect.
- **Materials** and **ShaderCaches**: the shader and program cache.
  - `Materials` describes `fetchShader`, `compileProgram`, `fetchProgram` and
    the watcher's `onFileChanged` as functions on a value holding the four
    global maps.
  - `ShaderCaches` holds those maps as fields of a `ShaderCache` object.
    `Program` objects resolve their shader list through that cache.

Every OpenGL call, and every message on the alert channel, is an event appended
to a trace kept by a `Gl.GlContext` object. Native object names come from a
counter in that object. What the driver decides by itself comes from a fixed
oracle, `Gl.Driver`:

- compile, validate and link status;
- info logs;
- uniform locations.

The file system is an input, `Materials.FileSystem`, which says:

- how a path is sanitized;
- what a file contains;
- which files reading a shader records.

The alert channel is modelled as follows:

- `assertFatal` (and `fatal`) becomes an `Exited` outcome, with the state left
  as it was and a fatal message as the last event.
- `assert` with a message, `error`, `warning` and `infod` are events after
  which execution continues.
- A message-less `assert` is a `DebugTrap` event.

Three behaviours of the code are worth stating plainly:

- Mip generation during (re)allocation happens right after level 0, and only
  when more than one data level exists (`buffers.cpp:34`). A mip count
  requested with `generateMipMaps` before the texture is realized is allocated
  but never generated (`RequestedMipsAreNotGeneratedOnInitialize`).
- An invalid format value and an ambiguous mip request are reported with
  `error`/`assert`, and execution continues with a fallback value.
- Read-back sizes divide the pixel count by `factor * factor` (or its cube),
  and the cube variant counts `width³` pixels.

## Model

| member | source | states |
|---|---|---|
| Formats.LayoutOf | ColorGrading/bufferformats.cpp:6-24 | the raw enumerant of a layout identifies it: any answer is the layout with that enumerant, and every layout with that enumerant is the answer |
| Formats.HighLevelFormatChannels | ColorGrading/bufferformats.cpp:4-27 | 1 for RED, RED_INTEGER and DEPTH_COMPONENT; 2 for RG, RG_INTEGER and DEPTH_STENCIL; 3 for RGB and RGB_INTEGER; 4 for RGBA and RGBA_INTEGER; any other enumerant is reported and answered with 4 |
| Formats.HighLevelFormat | ColorGrading/bufferformats.cpp:29-90 | total: every enumerator gets the layout its name calls for (UI/I suffix gives the *_INTEGER layout of the channel group, other colour suffixes the plain one, depth formats DEPTH_COMPONENT, depth-stencil formats DEPTH_STENCIL); an illegal cast is reported and answered with GL_RGBA |
| Formats.FormatDataType | ColorGrading/bufferformats.cpp:92-153 | every enumerator gets a type; regular and depth names get the type their bit depth and kind call for (8-bit SNORM/I BYTE, 8-bit UNORM/UI/sRGB UNSIGNED_BYTE, 16F HALF_FLOAT, 32F FLOAT, 16UI/16I, 32UI/32I); R11F_G11F_B10F, RGB9_E5, RGB10_A2/RGB10_A2UI and the two depth-stencil formats get their packed types, while RGB565, RGB5_A1 and RGBA4 get GL_UNSIGNED_BYTE as the code returns; an illegal cast is reported and answered with GL_RGBA |
| Formats.Channels | ColorGrading/buffers.h:65 | the channel count read-back buffers use, `highLevelFormatChannels(highLevelFormat(f))`, is always answered without error and lies in 1..4 |
| Formats.ChannelsMatchName | ColorGrading/bufferformats.cpp:4-86 | for every colour format the channel count equals the count its name prefix announces (R=1, RG=2, RGB=3, RGBA=4); depth formats 1, depth-stencil formats 2 |
| Formats.FallbackIsRgba | ColorGrading/bufferformats.cpp:4-89 | every layout the format lookup returns, fallback included, is known to the channel lookup; the GL_RGBA fallback counts 4 channels |
| Formats.LayoutCodeInjective | ColorGrading/bufferformats.cpp:6-24 | the layout enumerants are pairwise distinct, so the channel switch is a function of the layout |
| Textures.Constructed | ColorGrading/buffers.cpp:111-128 | a new texture is unrealized and untiled and keeps its data and its given sizes (a cube takes width for both sides); 3D and cube take one mip level per data buffer (1 without data); the 2D constructor forces 1; a cube is square |
| Textures.Acquire | ColorGrading/buffers.h:14-20 | handle() always leaves the texture realized; on a realized texture it changes and issues nothing; otherwise the new name is the next free one |
| Textures.DefaultMipLevelsSpec | ColorGrading/buffers.cpp:95-100 | generateMipMaps(0) picks the unique m with 2^(m-1) <= max(w, h) < 2^m, i.e. floor(log2(max(w, h))) + 1 |
| Textures.DefaultMipLevelsExamples | ColorGrading/buffers.cpp:95-100 | 100 x 40 gives 7 mip levels and 1 x 1 gives 1 |
| Textures.MipLevelsFor | ColorGrading/buffers.cpp:97-99 | the shift-and-count loop computes exactly that default mip count |
| Textures.LevelCallsShape | ColorGrading/buffers.cpp:18-37 | the 2D/3D reallocation uploads level 0, then (only with several data levels) the mip generation, then levels 1 .. n-1 in increasing order, one call per level |
| Textures.UploadSizes | ColorGrading/buffers.cpp:26-32 | level i is sized w/2^i x h/2^i (and d/2^i for 3D) and carries data buffer i exactly when i < number of data buffers |
| Textures.NoGenerationWithoutDataLevels | ColorGrading/buffers.cpp:34-35 | with at most one data level the 2D/3D reallocation never generates mips |
| Textures.CubeAllocationOrder | ColorGrading/buffers.cpp:295-326 | the cube reallocation sets mipLevels to data/6 (or 1), binds, uploads level 0 of faces 0..5, generates mips once, then uploads levels 1 .. mips-1 face by face; face f level m reads buffer f*mips+m; 10 + 6(mips-1) calls in all |
| Textures.CubeEighteenBuffers | ColorGrading/buffers.cpp:300-322 | 6 faces x 3 levels of data give 3 mip levels, and face f, level m reads buffer 3f+m |
| Textures.CubeSourcesInRange | ColorGrading/buffers.cpp:303-309 | every buffer index the cube allocation reads is in range when the data is empty or holds at least 6 buffers; with 1 to 5 buffers face 5 reads past the end |
| Textures.AcquireIsCached | ColorGrading/buffers.h:14-20 | a second handle() returns the same name and issues nothing; the first one starts with glGenTextures |
| Textures.SetSizeUnchanged | ColorGrading/buffers.cpp:8-16 | setSize to the current size (2D, cube, and 3D with depth) changes nothing and issues nothing |
| Textures.SetSizeWithDataIsFatal | ColorGrading/buffers.cpp:118-122 | a texture constructed with data (2D, 3D or cube) cannot be resized: setSize ends the process with the fatal message and the object is unchanged |
| Textures.SetSizeReallocatesOnlyWhenRealized | ColorGrading/buffers.cpp:8-16 | a new size is stored; an unrealized texture gets no driver call (only cube messages); a realized one issues the cube checks followed by exactly the reallocation of the resized texture, and ends in its state (the cube's mip count reset included) |
| Textures.SetSizeUploadsNewSize | ColorGrading/buffers.cpp:8-16 | on a realized 2D texture, the call after the bind is the level-0 upload at the new width and height |
| Textures.SetSize3DReallocatesOnlyWhenRealized | ColorGrading/buffers.cpp:155-165 | the 3D rule: all three sizes are stored; unrealized, no call; realized, exactly the reallocation of the resized texture |
| Textures.SetSize3DUploadsNewSize | ColorGrading/buffers.cpp:155-165 | on a realized 3D texture, the call after the bind is the level-0 upload at the new width, height and depth |
| Textures.ReallocationStartsAtLevelZero | ColorGrading/buffers.cpp:18-36 | the 2D/3D reallocation binds, then uploads level 0 |
| Textures.SetTilingWraps | ColorGrading/buffers.cpp:57-86 | setTiling always stores the flag; only when realized it binds and sets the R, S and T wraps all to REPEAT (tiling) or all to CLAMP_TO_EDGE |
| Textures.GenerateMipMapsEffect | ColorGrading/buffers.cpp:88-104 | an explicit count is stored verbatim, 0 selects the default count; the non-fatal report appears exactly when several data levels exist; regeneration happens only when realized |
| Textures.RequestedMipsAreNotGeneratedOnInitialize | ColorGrading/buffers.cpp:18-49 | a mip count requested before realization on a 2D/3D texture with at most one data level is allocated but no glGenerateMipmap is ever issued by handle() |
| Textures.ReadCountCoversFlatLevel | ColorGrading/buffers.h:59-70 | the element count _read allocates for a 2D level is at least channels x (w/2^i) x (h/2^i), the size of that level as `_sizeChanged` allocates it (row padding and levels resized by glGenerateMipmap are not covered; see Left out) |
| Textures.ReadCountCoversVolumeLevel | ColorGrading/buffers.h:108 | the same bound against the allocated size of a 3D level, whose three sizes are halved |
| Textures.ReadCountCoversCubeFaceLevel | ColorGrading/buffers.h:172-183 | the same bound against the allocated size of one face level of a square cube (the w³ count leaves room to spare) |
| Textures.ColorBuffer.Flat | ColorGrading/buffers.cpp:124-128 | the 2D constructor yields the constructed state with one mip level |
| Textures.ColorBuffer.Volume | ColorGrading/buffers.cpp:150-153 | the 3D constructor yields the constructed state |
| Textures.ColorBuffer.Cube | ColorGrading/buffers.cpp:283-286 | the cube constructor yields a square constructed state |
| Textures.ColorBuffer.FromImage | ColorGrading/buffers.cpp:130-140 | one data level of exactly w*h*4 bytes, RGBA8 or SRGB8_ALPHA8, with the requested tiling, and no driver call |
| Textures.ColorBuffer.HasMips | ColorGrading/buffers.h:79 | hasMips holds exactly when mipLevels > 1 |
| Textures.ColorBuffer.Handle | ColorGrading/buffers.h:14-20 | handle() has the effect of Acquire and returns the realized name |
| Textures.ColorBuffer.Initialize | ColorGrading/buffers.cpp:39-49 | _initialize: create, reallocate, set the minification filter from the (possibly reset) mip count, apply the wrap mode; draws exactly one name |
| Textures.ColorBuffer.Bind | ColorGrading/buffers.h:84 | bind() realizes the texture if needed, then binds it to its target |
| Textures.ColorBuffer.TilingSet | ColorGrading/buffers.cpp:57-72 | _tilingSet issues the bind and the three wrap calls of the stored mode |
| Textures.ColorBuffer.GenerateMipMapsNow | ColorGrading/buffers.cpp:74-79 | _generateMipMaps binds, sets MAX_LEVEL to mipLevels and generates |
| Textures.ColorBuffer.SizeChanged | ColorGrading/buffers.cpp:18-37 | _sizeChanged, dispatched on the shape, has exactly the reallocation effect |
| Textures.ColorBuffer.SizeChangedLevels | ColorGrading/buffers.cpp:18-37 | the 2D loop (and the 3D one, buffers.cpp:167-186) issues the bind and the per-level allocations described by LevelCallsShape |
| Textures.ColorBuffer.AllocateLevel | ColorGrading/buffers.cpp:26-35 | one loop pass: the level's upload, then the mip generation after level 0 when several data levels exist |
| Textures.ColorBuffer.SizeChangedCube | ColorGrading/buffers.cpp:295-326 | the cube _sizeChanged resets the mip count and issues the allocation order of CubeAllocationOrder |
| Textures.ColorBuffer.CubeBaseLevels | ColorGrading/buffers.cpp:303-309 | the first cube loop uploads level 0 of faces 0..5 in order |
| Textures.ColorBuffer.CubeHigherLevels | ColorGrading/buffers.cpp:315-325 | the second cube loop uploads levels >= 1 face by face |
| Textures.ColorBuffer.CubeFaceLevels | ColorGrading/buffers.cpp:317-324 | the inner loop uploads levels 1 .. mips-1 of one face |
| Textures.ColorBuffer.SetSize | ColorGrading/buffers.cpp:118-122 | setSize has the effect of Resized: fatal with data, no-op at the same size, reallocation only when realized (cube: its checks first) |
| Textures.ColorBuffer.CheckSize | ColorGrading/buffers.cpp:288-293 | the cube's two non-fatal checks: data present, width != height |
| Textures.ColorBuffer.SetCubeSize | ColorGrading/buffers.h:191 | cube setSize(size) is exactly setSize(size, size) |
| Textures.ColorBuffer.SetSize3D | ColorGrading/buffers.cpp:155-165 | the 3D setSize has the effect of Resized3D: fatal with data, no-op when all three sizes are unchanged (SetSizeUnchanged), sizes stored and reallocation only when realized (SetSize3DReallocatesOnlyWhenRealized) |
| Textures.ColorBuffer.SetTiling | ColorGrading/buffers.cpp:81-86 | setTiling has the effect of Retiled (see SetTilingWraps) |
| Textures.ColorBuffer.GenerateMipMaps | ColorGrading/buffers.cpp:88-104 | generateMipMaps has the effect of WithMipLevels (see GenerateMipMapsEffect) |
| Textures.ColorBuffer.ReadBack | ColorGrading/buffers.h:61-70 | _read allocates ReadCount elements, binds (realizing if needed) and downloads the level from the texture's target |
| Textures.ColorBuffer.CubeReadBack | ColorGrading/buffers.h:174-184 | the cube _read traps when the level is not below mipLevels, then sizes, binds and downloads from the face's target |
| Storage.RenderAcquireOnce | ColorGrading/buffers.cpp:200-205 | the first handle() of a render buffer creates one buffer and allocates it at the stored size; later calls issue nothing |
| Storage.RenderResizeRule | ColorGrading/buffers.cpp:8-16 | render-buffer setSize stores the size; same size or unrealized issues nothing; otherwise bind and storage at the new size |
| Storage.RenderBuffer.constructor | ColorGrading/buffers.cpp:188-191 | a new render buffer is unrealized with the given format and size |
| Storage.RenderBuffer.Handle | ColorGrading/buffers.h:14-20 | handle() has the effect of RenderAcquire and returns the name |
| Storage.RenderBuffer.Initialize | ColorGrading/buffers.cpp:200-205 | _initialize creates the buffer and allocates it |
| Storage.RenderBuffer.SizeChanged | ColorGrading/buffers.cpp:193-198 | _sizeChanged binds and allocates storage of the current size |
| Storage.RenderBuffer.SetSize | ColorGrading/buffers.cpp:8-16 | setSize has the effect of RenderResized |
| Storage.RenderBuffer.Bind | ColorGrading/buffers.cpp:213-216 | bind() issues one bind of the realized buffer |
| Storage.StorageAcquire | ColorGrading/buffers.cpp:229-237 | handle() of an SSBO never ends the process and always leaves it realized |
| Storage.StorageResizeRule | ColorGrading/buffers.cpp:245-257 | SSBO setSize is fatal and changes nothing when data is owned; otherwise it sets the size, drops the data and re-uploads only when realized |
| Storage.StorageDataRule | ColorGrading/buffers.cpp:259-270 | setData replaces size and data unconditionally and re-uploads (exactly when realized) the new contents |
| Storage.StorageAcquireUploadsContents | ColorGrading/buffers.cpp:229-237 | creating an SSBO never hits the fatal path, and its first upload names the stored size and data (the freed-pointer read is under Left out) |
| Storage.ElementCount | ColorGrading/buffers.h:155-157 | read<T> allocates the whole elements that fit in the size; the byte copy fills the allocation exactly when the size is a multiple of the element size |
| Storage.StorageBuffer.constructor | ColorGrading/buffers.cpp:218-222 | a new SSBO is unrealized with the given size and data |
| Storage.StorageBuffer.Handle | ColorGrading/buffers.h:14-20 | handle() has the effect of StorageAcquire |
| Storage.StorageBuffer.Initialize | ColorGrading/buffers.cpp:229-237 | _initialize creates the buffer, then goes through setData with owned data and setSize otherwise |
| Storage.StorageBuffer.SetSize | ColorGrading/buffers.cpp:245-257 | setSize has the effect of StorageResized, outcome included |
| Storage.StorageBuffer.SetData | ColorGrading/buffers.cpp:259-270 | setData has the effect of StorageDataSet |
| Storage.StorageBuffer.Bind | ColorGrading/buffers.cpp:272-275 | bind(index) issues one indexed bind of the realized buffer |
| Storage.StorageBuffer.Read | ColorGrading/buffers.h:151-160 | read<T> binds, maps, unmaps and returns size / sizeof(T) elements |
| Storage.UnbindAll | ColorGrading/buffers.cpp:277-281 | unbindAll clears only the generic binding point |
| Materials.ShaderKeyInjective | ColorGrading/materials.cpp:87-93 | two shaders have the same key exactly when they are equal; the same path under two stages gives two keys |
| Materials.ProgramKeyPair | ColorGrading/materials.cpp:148-152 | the program key of any [a, b] is key(a) followed by key(b) |
| Materials.ProgramKeyOrder | ColorGrading/materials.cpp:148-152 | swapping two distinct shaders with equally long paths changes the program key |
| Materials.ProgramKeySwapCollision | ColorGrading/materials.cpp:148-152 | without equally long paths the order can be lost: b with path key(a) ++ path(a) and a's stage gives [a, b] and [b, a] the same key, so keys differ only for equal-length paths, not for every pair of distinct lists |
| Materials.ProgramKeyCollision | ColorGrading/materials.cpp:148-152 | the concatenated key is not injective: a two-shader and a one-shader program can share a key |
| Materials.AssociateEffect | ColorGrading/materials.cpp:104-107 | the push_back loop appends the key once per occurrence of a file to that file's list, creates lists for new files and touches nothing else |
| Materials.ShaderFetchMemoised | ColorGrading/materials.cpp:95-111 | a second fetchShader returns the same id, issues nothing and draws no name |
| Materials.ShaderMissCompiles | ColorGrading/materials.cpp:95-111 | on a miss the shader is compiled once under a fresh name, cached even if compilation failed (only a warning with the log), its files recorded and associated |
| Materials.ShaderFetchedValid | ColorGrading/materials.cpp:95-111 | fetchShader keeps the cache invariant, leaves the shader cached under its id and changes no existing entry |
| Materials.TwoStagesTwoEntries | ColorGrading/materials.cpp:87-111 | the same path fetched under two stages gives two cache entries with different ids |
| Materials.ShadersAttachedValid | ColorGrading/materials.cpp:113-117 | compileProgram's loop leaves every constituent shader cached, keeps the invariant and existing entries |
| Materials.ProgramAssociatedAppends | ColorGrading/materials.cpp:157-163 | the program association loop only appends the program key to file lists |
| Materials.ProgramAssociatedCovers | ColorGrading/materials.cpp:157-163 | after it, every source file of every constituent shader lists the program key |
| Materials.ProgramAssociatedSources | ColorGrading/materials.cpp:157-163 | with all shader keys known, the loop leaves the source-file map unchanged |
| Materials.ProgramFetchMemoised | ColorGrading/materials.cpp:146-166 | a second fetchProgram returns the same id and issues nothing |
| Materials.ProgramMissCompiles | ColorGrading/materials.cpp:146-166 | on a miss: one program with a fresh name, created first, cached under the key; every constituent shader cached; every source file lists the key; invariant kept |
| Materials.ProgramMissCache | ColorGrading/materials.cpp:153-156 | the cache part of a miss: fresh name, created first, stored under the program key |
| Materials.ProgramMissValid | ColorGrading/materials.cpp:146-166 | a miss keeps the cache invariant |
| Materials.ProgramMissAssociates | ColorGrading/materials.cpp:153-163 | after a miss every constituent shader is cached and each of its source files lists the program key |
| Materials.ProgramFetchedValid | ColorGrading/materials.cpp:146-166 | fetchProgram keeps the cache invariant |
| Materials.EvictedEffect | ColorGrading/materials.cpp:43-55 | the eviction loop removes exactly the listed keys from both caches, deletes only cached ids and deletes every cached id listed |
| Materials.EvictedCache | ColorGrading/materials.cpp:43-55 | the caches after the loop are the old ones minus the listed keys |
| Materials.EvictedCallsSound | ColorGrading/materials.cpp:43-55 | every delete call names an id that was cached |
| Materials.EvictedCallsComplete | ColorGrading/materials.cpp:43-55 | every cached id under a listed key is deleted |
| Materials.FileChangedEffect | ColorGrading/materials.cpp:26-56 | onFileChanged(p) evicts exactly the keys listed under the sanitized p; every other entry and the source-file map stay; the invariant is kept |
| Materials.ReadFileChangeEvictsShader | ColorGrading/materials.cpp:95-111 | when the file read is recorded, changing it evicts the shader fetched from it |
| Materials.ProgramFileChangeEvicts | ColorGrading/materials.cpp:26-56 | when the files read are recorded, changing any source file of a shader of a program fetched on a miss removes the program from the cache and deletes its id |
| Materials.ListedProgramEvicted | ColorGrading/materials.cpp:26-56 | a program key listed under the sanitized changed path leaves the program cache and its id is deleted |
| Materials.AsWrittenShaderFetchUnassociated | ColorGrading/materials.cpp:4-15 | with no file ever recorded, fetchShader keeps every association list empty |
| Materials.AsWrittenAttachUnassociated | ColorGrading/materials.cpp:113-117 | the same for compileProgram's loop |
| Materials.AsWrittenProgramAssociationEmpty | ColorGrading/materials.cpp:157-163 | with empty source lists the program association loop adds nothing |
| Materials.AsWrittenProgramFetchUnassociated | ColorGrading/materials.cpp:146-166 | the same for fetchProgram |
| Materials.AsWrittenNothingIsEvicted | ColorGrading/materials.cpp:43-55 | with empty lists a file change evicts and deletes nothing |
| Materials.UniformWriteRule | ColorGrading/materials.cpp:193-198 | a uniform at location -1 produces only the info message and no write; a found one is written once, last, at its location; the fetch comes first |
| ShaderCaches.ProgramKeyOf | ColorGrading/materials.cpp:148-152 | the key loop computes the in-order concatenation of the shader keys |
| ShaderCaches.ShaderCache.constructor | ColorGrading/materials.cpp:18-21 | the four maps start empty |
| ShaderCaches.ShaderCache.ReadWithIncludes | ColorGrading/materials.cpp:4-15 | the file's text, or the warning and an empty text when it cannot be opened |
| ShaderCaches.ShaderCache.Compile | ColorGrading/materials.cpp:68-85 | create, source, compile, status query, log and warning only on failure; returns the fresh name either way |
| ShaderCaches.ShaderCache.AssociateAll | ColorGrading/materials.cpp:104-107 | the push_back loop over a file list, nothing else changed |
| ShaderCaches.ShaderCache.FetchShader | ColorGrading/materials.cpp:95-111 | fetchShader has the effect of ShaderFetched |
| ShaderCaches.ShaderCache.AttachNext | ColorGrading/materials.cpp:116-117 | one more pass of the attach loop extends its effect by one shader |
| ShaderCaches.ShaderCache.FetchAndAttach | ColorGrading/materials.cpp:117 | fetch the shader, then attach its id |
| ShaderCaches.ShaderCache.AttachAll | ColorGrading/materials.cpp:116-117 | the attach loop has the effect of ShadersAttached |
| ShaderCaches.ShaderCache.CompileProgram | ColorGrading/materials.cpp:113-144 | compileProgram has the effect of ProgramCompiled |
| ShaderCaches.ShaderCache.Link | ColorGrading/materials.cpp:119-141 | link, then the validate and link status queries, each warning with the log on failure |
| ShaderCaches.ShaderCache.FetchProgram | ColorGrading/materials.cpp:146-166 | fetchProgram has the effect of ProgramFetched |
| ShaderCaches.ShaderCache.AssociateProgram | ColorGrading/materials.cpp:157-163 | the association loop has the effect of ProgramAssociated |
| ShaderCaches.ShaderCache.OnFileChanged | ColorGrading/materials.cpp:26-56 | onFileChanged has the effect of FileChanged |
| ShaderCaches.ShaderCache.EvictAll | ColorGrading/materials.cpp:43-55 | the eviction loop has the effect of Evicted |
| ShaderCaches.ShaderCache.Evict | ColorGrading/materials.cpp:45-54 | one key: delete its shader, then its program, then erase it from both caches |
| ShaderCaches.Program.Empty | ColorGrading/materials.cpp:174-176 | Program() has no shaders |
| ShaderCaches.Program.Single | ColorGrading/materials.cpp:178-181 | Program(shader) has that one shader |
| ShaderCaches.Program.constructor | ColorGrading/materials.cpp:183-186 | Program(shaders) keeps the list in order |
| ShaderCaches.Program.Bind | ColorGrading/materials.cpp:188-191 | bind() fetches the program, then uses it |
| ShaderCaches.Program.Set | ColorGrading/materials.cpp:193-213 | set(key, value) has the effect of UniformSet (see UniformWriteRule) |
| ShaderCaches.Program.SetTexture | ColorGrading/materials.cpp:215-221 | the texture overload activates the unit and binds the texture (realizing it) before the lookup, then writes the unit |

## Left out

- Integer width: sizes, mip counts and byte counts are unbounded naturals. C++ `int` overflow, negative sizes, and `1 << mipLevel` overflowing at 31 or more levels are not modelled.
- Textures.ColorBuffer.ReadBack: returns the element count it allocates, not the downloaded pixels, because the driver's memory writes are outside the model.
- Textures.ColorBuffer.CubeReadBack: returns the element count it allocates for the face, not the downloaded pixels, for the same reason.
- ReadCountCoversFlatLevel, ReadCountCoversVolumeLevel and ReadCountCoversCubeFaceLevel bound the allocation only against the level size `_sizeChanged` allocates. The driver may write more: the pack alignment is never set, so it stays 4 and rows are padded (readBytes on a 1x2 RGB8 texture allocates 6 bytes while 7 are written), and `glGenerateMipmap` (`buffers.cpp:74-79`) gives generated levels at least one pixel per side (level 2 of a 4x1 texture is 1x1, while `_numPixels(4)` is 0). That overrun is not modelled.
- Storage.StorageBuffer.Read: returns the element count, not the copied bytes. The copy of `size` bytes into `size / sizeof(T)` elements overruns the allocation when the size is not a multiple of the element size. `ElementCount` states when the two agree.
- Memory ownership and deletes are left out. This includes SSBO `_initialize` handing its own data pointer to `setData`, which deletes it before storing it (`buffers.cpp:233-234`, `261-263`).
- Releasing native objects (`_uninitialize`, destructors) is left out. The base destructor's virtual call dispatches to the base no-op, so no release is guaranteed.
- `toQImage` and the pixel conversion of `fromQImage` are Qt image handling. Only the byte count and the format choice of `fromQImage` are kept.
- `bindLoadStore` is one driver call with no state of its own.
- The watcher's re-arm loop in `onFileChanged` (`materials.cpp:29-42`) is an unbounded spin against the file-system watcher. The model starts after it.
- File reading and path sanitizing are inputs (`Materials.FileSystem`). UTF-8 decoding of the stage tag is not modelled: the tag is two characters, the low bytes of the stage enumerant. Decoded, the fragment and vertex tags are `'0'` and `'1'` each followed by U+FFFD (0x8B alone is not valid UTF-8), while the geometry bytes `D9 8D` form the single character U+064D. Tags of different stages still differ in their last character (geometry against the others) or in their first character of two (fragment against vertex), so the arguments of `ShaderKeyInjective` and `ProgramKeyOrder` carry over to the decoded tags.
- `fileKeyAssociation` is declared as a map from path to one string (`materials.cpp:20`). So `push_back(key)` at `materials.cpp:106` and `:161` appends the key's text to that string, and the loop at `materials.cpp:43` walks the string one character at a time, looking up one-character keys at `:45` and `:50`. Every real key is a path followed by a stage tag, so these lookups find nothing (only a geometry shader with an empty path, whose decoded key is one character, could match), and even with the files read recorded a file change would evict nothing. The model stores a sequence of keys per path, which is the intended behaviour, not the code as written.
- ShaderCaches.Program.Set: the 27 `set` overloads become one method taking a `UniformValue`. With an empty vector the vector overloads read `value[0]` out of range, which is not modelled.
- The shader key uses the path as given, while the file is read through the sanitized path. The model keeps both, as the code does.
- A cube with 1 to 5 data buffers reads out of range in `_sizeChanged`. `CubeSourcesInRange` shows which index is read; the read itself is not modelled.
- Storage.RenderBuffer.Bind, Storage.StorageBuffer.Bind and Storage.StorageBuffer.Read require a realized buffer. The source dereferences the null `_handle` when they run before realization (`buffers.cpp:215`, `274`, `buffers.h:153`), which is undefined behaviour, so that case is excluded.
- `main.cpp` widgets, `prototype.py`, and the alert channel's formatting and message boxes are not part of this model. `assertFatal`'s process exit is modelled (outcome `Exited`) for the path without a debugger; with a debugger attached it breaks into the debugger and carries on (`alerts.cpp:121-133`), which is not modelled.

## Findings

| source | as written | input that shows it | evidently intended | confidence | as-written member | corrected member |
|---|---|---|---|---|---|---|
| ColorGrading/materials.cpp:4-15 | `readWithIncludes` takes `readFiles` by value and never appends to it, so `fetchShader` records no source file for any shader | fetch any shader, then change its file: `onFileChanged` finds no key under that file, deletes nothing, and the edited shader stays cached | the files read are recorded, and `fileKeyAssociation` holds a list of keys rather than one concatenated string (`materials.cpp:20`, `:43`; see Left out), so a change evicts the shader and every program using it | not executed | Materials.AsWrittenNothingIsEvicted | Materials.ReadFileChangeEvictsShader |

The whole cache model takes the recorded files as the input
`FileSystem.filesRead`. The as-written behaviour is that input being empty
everywhere. The `AsWritten*` lemmas show that every association list then
stays empty, so nothing is ever evicted. With the files recorded, fetching
registers the shader and the program under each source file
(`ProgramMissCompiles`), and a change of that file evicts them
(`FileChangedEffect`, `ReadFileChangeEvictsShader` for the shader,
`ProgramFileChangeEvicts` for every program using it).
These two lemmas rest on two corrections: the files read are recorded, and
each path keeps a list of keys instead of one concatenated string.

=== FILE: formats.dfy ===
/** The format catalog: the closed set of colour-buffer formats and the three
    lookups that derive a channel layout, a per-channel data type and a channel
    count from them (ColorGrading/bufferformats.cpp). */
module Formats {
  import opened Wrappers

  /** The semantic colour-buffer formats; each one stands for the OpenGL internal
      format of the same name. */
  datatype ColorBufferFormat =
    | R8 | R8_SNORM | R16F | R32F | R8UI | R8I | R16UI | R16I | R32UI | R32I
    | RG8 | RG8_SNORM | RG16F | RG32F | RG8UI | RG8I | RG16UI | RG16I | RG32UI | RG32I
    | RGB8 | SRGB8 | RGB565 | RGB8_SNORM | R11F_G11F_B10F | RGB9_E5 | RGB16F | RGB32F
    | RGB8UI | RGB8I | RGB16UI | RGB16I | RGB32UI | RGB32I
    | RGBA8 | SRGB8_ALPHA8 | RGBA8_SNORM | RGB5_A1 | RGBA4 | RGB10_A2 | RGBA16F | RGBA32F
    | RGBA8UI | RGBA8I | RGB10_A2UI | RGBA16UI | RGBA16I | RGBA32I | RGBA32UI
    | DEPTH_COMPONENT16 | DEPTH_COMPONENT24 | DEPTH_COMPONENT32F
    | DEPTH24_STENCIL8 | DEPTH32F_STENCIL8

  /** Render-buffer formats; no lookup uses them, a render buffer only forwards its
      format to the storage call. */
  datatype RenderBufferFormat =
    | RB_R8 | RB_R8UI | RB_R8I | RB_R16UI | RB_R16I | RB_R32UI | RB_R32I
    | RB_RG8 | RB_RG8UI | RB_RG8I | RB_RG16UI | RB_RG16I | RB_RG32UI | RB_RG32I
    | RB_RGB8 | RB_RGB565 | RB_RGBA8 | RB_SRGB8_ALPHA8 | RB_RGB5_A1 | RB_RGBA4 | RB_RGB10_A2
    | RB_RGBA8UI | RB_RGBA8I | RB_RGB10_A2UI | RB_RGBA16UI | RB_RGBA16I | RB_RGBA32I | RB_RGBA32UI
    | RB_DEPTH_COMPONENT16 | RB_DEPTH_COMPONENT24 | RB_DEPTH_COMPONENT32F
    | RB_DEPTH24_STENCIL8 | RB_DEPTH32F_STENCIL8 | RB_STENCIL_INDEX8

  /** What a caller can hand to the lookups: an enumerator, or a value that was cast
      into the enum type without naming any enumerator. */
  datatype FormatValue = Enumerator(format: ColorBufferFormat) | IllegalCast

  /** High-level channel layouts (the OpenGL pixel-transfer formats). */
  datatype Layout =
    | RED | RED_INTEGER | RG | RG_INTEGER | RGB | RGB_INTEGER | RGBA | RGBA_INTEGER
    | DEPTH_COMPONENT | DEPTH_STENCIL

  /** Per-channel element types (the OpenGL pixel-transfer types). */
  datatype DataType =
    | BYTE | UNSIGNED_BYTE | SHORT | UNSIGNED_SHORT | INT | UNSIGNED_INT | HALF_FLOAT | FLOAT
    | UNSIGNED_INT_10F_11F_11F_REV | UNSIGNED_INT_5_9_9_9_REV | UNSIGNED_INT_2_10_10_10_REV
    | UNSIGNED_INT_24_8 | FLOAT_32_UNSIGNED_INT_24_8_REV

  /** A lookup answer: the mapped value, or the error report together with the raw
      fallback value the lookup returns after reporting. */
  datatype Reported<T> = Ok(value: T) | Error(fallback: int)

  /** The numeric value of GL_RGBA, the fallback of both format lookups. */
  const GL_RGBA: int := 0x1908

  /** The OpenGL enumerant value of each layout. */
  function LayoutCode(l: Layout): int
  {
    match l
    case RED => 0x1903
    case RED_INTEGER => 0x8D94
    case RG => 0x8227
    case RG_INTEGER => 0x8228
    case RGB => 0x1907
    case RGB_INTEGER => 0x8D98
    case RGBA => GL_RGBA
    case RGBA_INTEGER => 0x8D99
    case DEPTH_COMPONENT => 0x1902
    case DEPTH_STENCIL => 0x84F9
  }

  /** The layout a raw enumerant names, if any. */
  function LayoutOf(code: int): (r: Option<Layout>)
    ensures r.Some? ==> LayoutCode(r.value) == code
    ensures forall l :: LayoutCode(l) == code ==> r == Some(l)
  {
    if code == 0x1903 then Some(RED)
    else if code == 0x8D94 then Some(RED_INTEGER)
    else if code == 0x8227 then Some(RG)
    else if code == 0x8228 then Some(RG_INTEGER)
    else if code == 0x1907 then Some(RGB)
    else if code == 0x8D98 then Some(RGB_INTEGER)
    else if code == GL_RGBA then Some(RGBA)
    else if code == 0x8D99 then Some(RGBA_INTEGER)
    else if code == 0x1902 then Some(DEPTH_COMPONENT)
    else if code == 0x84F9 then Some(DEPTH_STENCIL)
    else None
  }

  // ---------------------------------------------------------------------------
  // An independent reference: what each enumerator's NAME says about it.

  /** The suffix of a regular format name: unsigned or signed normalised, float,
      unsigned or signed integer, or sRGB-encoded. */
  datatype Kind = Unorm | Snorm | Float | UInt | SInt | Srgb

  /** How a format name reads: a regular name (channel prefix R/RG/RGB/RGBA, bits
      per channel, kind), a packed colour name (channel count, integer or not), a
      depth name (bits, float or not) or a depth-stencil name. */
  datatype Naming =
    | Regular(channels: nat, bits: nat, kind: Kind)
    | Packed(channels: nat, integer: bool)
    | Depth(depthBits: nat, isFloat: bool)
    | DepthStencil(isFloat: bool)

  function NameOf(f: ColorBufferFormat): (n: Naming)
    ensures n.Regular? || n.Packed? ==> 1 <= n.channels <= 4
  {
    match f
    case R8 => Regular(1, 8, Unorm)
    case R8_SNORM => Regular(1, 8, Snorm)
    case R16F => Regular(1, 16, Float)
    case R32F => Regular(1, 32, Float)
    case R8UI => Regular(1, 8, UInt)
    case R8I => Regular(1, 8, SInt)
    case R16UI => Regular(1, 16, UInt)
    case R16I => Regular(1, 16, SInt)
    case R32UI => Regular(1, 32, UInt)
    case R32I => Regular(1, 32, SInt)
    case RG8 => Regular(2, 8, Unorm)
    case RG8_SNORM => Regular(2, 8, Snorm)
    case RG16F => Regular(2, 16, Float)
    case RG32F => Regular(2, 32, Float)
    case RG8UI => Regular(2, 8, UInt)
    case RG8I => Regular(2, 8, SInt)
    case RG16UI => Regular(2, 16, UInt)
    case RG16I => Regular(2, 16, SInt)
    case RG32UI => Regular(2, 32, UInt)
    case RG32I => Regular(2, 32, SInt)
    case RGB8 => Regular(3, 8, Unorm)
    case SRGB8 => Regular(3, 8, Srgb)
    case RGB565 => Packed(3, false)
    case RGB8_SNORM => Regular(3, 8, Snorm)
    case R11F_G11F_B10F => Packed(3, false)
    case RGB9_E5 => Packed(3, false)
    case RGB16F => Regular(3, 16, Float)
    case RGB32F => Regular(3, 32, Float)
    case RGB8UI => Regular(3, 8, UInt)
    case RGB8I => Regular(3, 8, SInt)
    case RGB16UI => Regular(3, 16, UInt)
    case RGB16I => Regular(3, 16, SInt)
    case RGB32UI => Regular(3, 32, UInt)
    case RGB32I => Regular(3, 32, SInt)
    case RGBA8 => Regular(4, 8, Unorm)
    case SRGB8_ALPHA8 => Regular(4, 8, Srgb)
    case RGBA8_SNORM => Regular(4, 8, Snorm)
    case RGB5_A1 => Packed(4, false)
    case RGBA4 => Packed(4, false)
    case RGB10_A2 => Packed(4, false)
    case RGBA16F => Regular(4, 16, Float)
    case RGBA32F => Regular(4, 32, Float)
    case RGBA8UI => Regular(4, 8, UInt)
    case RGBA8I => Regular(4, 8, SInt)
    case RGB10_A2UI => Packed(4, true)
    case RGBA16UI => Regular(4, 16, UInt)
    case RGBA16I => Regular(4, 16, SInt)
    case RGBA32I => Regular(4, 32, SInt)
    case RGBA32UI => Regular(4, 32, UInt)
    case DEPTH_COMPONENT16 => Depth(16, false)
    case DEPTH_COMPONENT24 => Depth(24, false)
    case DEPTH_COMPONENT32F => Depth(32, true)
    case DEPTH24_STENCIL8 => DepthStencil(false)
    case DEPTH32F_STENCIL8 => DepthStencil(true)
  }

  /** The colour layout for a channel count, plain or *_INTEGER. */
  function ColourLayout(channels: nat, integer: bool): Layout
    requires 1 <= channels <= 4
  {
    if channels == 1 then (if integer then RED_INTEGER else RED)
    else if channels == 2 then (if integer then RG_INTEGER else RG)
    else if channels == 3 then (if integer then RGB_INTEGER else RGB)
    else (if integer then RGBA_INTEGER else RGBA)
  }

  /** The layout a format name calls for: integer suffixes (UI, I) select the
      *_INTEGER layout of the channel group, every other colour suffix the plain one. */
  function NamedLayout(n: Naming): Layout
    requires n.Regular? || n.Packed? ==> 1 <= n.channels <= 4
  {
    match n
    case Regular(c, _, k) => ColourLayout(c, k == UInt || k == SInt)
    case Packed(c, i) => ColourLayout(c, i)
    case Depth(_, _) => DEPTH_COMPONENT
    case DepthStencil(_) => DEPTH_STENCIL
  }

  /** The element type a name determines by bit depth and kind, when it does. */
  function NamedType(n: Naming): Option<DataType>
  {
    match n
    case Regular(_, 8, Snorm) => Some(BYTE)
    case Regular(_, 8, SInt) => Some(BYTE)
    case Regular(_, 8, Unorm) => Some(UNSIGNED_BYTE)
    case Regular(_, 8, UInt) => Some(UNSIGNED_BYTE)
    case Regular(_, 8, Srgb) => Some(UNSIGNED_BYTE)
    case Regular(_, 16, Float) => Some(HALF_FLOAT)
    case Regular(_, 32, Float) => Some(FLOAT)
    case Regular(_, 16, UInt) => Some(UNSIGNED_SHORT)
    case Regular(_, 16, SInt) => Some(SHORT)
    case Regular(_, 32, UInt) => Some(UNSIGNED_INT)
    case Regular(_, 32, SInt) => Some(INT)
    case Depth(16, false) => Some(UNSIGNED_SHORT)
    case Depth(24, false) => Some(UNSIGNED_INT)
    case Depth(32, true) => Some(FLOAT)
    case _ => None
  }

  // ---------------------------------------------------------------------------
  // The three lookups.

  /** highLevelFormatChannels: the number of channels of a layout given as a raw
      enumerant; any other enumerant is reported and answered with 4. */
  function HighLevelFormatChannels(code: int): (r: Reported<int>)
    ensures r.Ok? <==> LayoutOf(code).Some?
    ensures r.Error? ==> r.fallback == 4
    ensures code in {LayoutCode(RED), LayoutCode(RED_INTEGER), LayoutCode(DEPTH_COMPONENT)} ==> r == Ok(1)
    ensures code in {LayoutCode(RG), LayoutCode(RG_INTEGER), LayoutCode(DEPTH_STENCIL)} ==> r == Ok(2)
    ensures code in {LayoutCode(RGB), LayoutCode(RGB_INTEGER)} ==> r == Ok(3)
    ensures code in {LayoutCode(RGBA), LayoutCode(RGBA_INTEGER)} ==> r == Ok(4)
  {
    if code == LayoutCode(RED) || code == LayoutCode(RED_INTEGER) then Ok(1)
    else if code == LayoutCode(RG) || code == LayoutCode(RG_INTEGER) then Ok(2)
    else if code == LayoutCode(RGB) || code == LayoutCode(RGB_INTEGER) then Ok(3)
    else if code == LayoutCode(RGBA) || code == LayoutCode(RGBA_INTEGER) then Ok(4)
    else if code == LayoutCode(DEPTH_COMPONENT) then Ok(1)
    else if code == LayoutCode(DEPTH_STENCIL) then Ok(2)
    else Error(4)
  }

  /** highLevelFormat: the layout of a format, as its name calls for; an illegal
      cast is reported and answered with GL_RGBA. */
  function HighLevelFormat(f: FormatValue): (r: Reported<Layout>)
    ensures f.Enumerator? ==> r == Ok(NamedLayout(NameOf(f.format)))
    ensures f.IllegalCast? ==> r == Error(GL_RGBA)
  {
    match f
    case IllegalCast => Error(GL_RGBA)
    case Enumerator(format) =>
      match format
      case R8 => Ok(RED)
      case R8_SNORM => Ok(RED)
      case R16F => Ok(RED)
      case R32F => Ok(RED)
      case R8UI => Ok(RED_INTEGER)
      case R8I => Ok(RED_INTEGER)
      case R16UI => Ok(RED_INTEGER)
      case R16I => Ok(RED_INTEGER)
      case R32UI => Ok(RED_INTEGER)
      case R32I => Ok(RED_INTEGER)
      case RG8 => Ok(RG)
      case RG8_SNORM => Ok(RG)
      case RG16F => Ok(RG)
      case RG32F => Ok(RG)
      case RG8UI => Ok(RG_INTEGER)
      case RG8I => Ok(RG_INTEGER)
      case RG16UI => Ok(RG_INTEGER)
      case RG16I => Ok(RG_INTEGER)
      case RG32UI => Ok(RG_INTEGER)
      case RG32I => Ok(RG_INTEGER)
      case RGB8 => Ok(RGB)
      case SRGB8 => Ok(RGB)
      case RGB565 => Ok(RGB)
      case RGB8_SNORM => Ok(RGB)
      case R11F_G11F_B10F => Ok(RGB)
      case RGB9_E5 => Ok(RGB)
      case RGB16F => Ok(RGB)
      case RGB32F => Ok(RGB)
      case RGB8UI => Ok(RGB_INTEGER)
      case RGB8I => Ok(RGB_INTEGER)
      case RGB16UI => Ok(RGB_INTEGER)
      case RGB16I => Ok(RGB_INTEGER)
      case RGB32UI => Ok(RGB_INTEGER)
      case RGB32I => Ok(RGB_INTEGER)
      case RGBA8 => Ok(RGBA)
      case SRGB8_ALPHA8 => Ok(RGBA)
      case RGBA8_SNORM => Ok(RGBA)
      case RGB5_A1 => Ok(RGBA)
      case RGBA4 => Ok(RGBA)
      case RGB10_A2 => Ok(RGBA)
      case RGBA16F => Ok(RGBA)
      case RGBA32F => Ok(RGBA)
      case RGBA8UI => Ok(RGBA_INTEGER)
      case RGBA8I => Ok(RGBA_INTEGER)
      case RGB10_A2UI => Ok(RGBA_INTEGER)
      case RGBA16UI => Ok(RGBA_INTEGER)
      case RGBA16I => Ok(RGBA_INTEGER)
      case RGBA32I => Ok(RGBA_INTEGER)
      case RGBA32UI => Ok(RGBA_INTEGER)
      case DEPTH_COMPONENT16 => Ok(DEPTH_COMPONENT)
      case DEPTH_COMPONENT24 => Ok(DEPTH_COMPONENT)
      case DEPTH_COMPONENT32F => Ok(DEPTH_COMPONENT)
      case DEPTH24_STENCIL8 => Ok(DEPTH_STENCIL)
      case DEPTH32F_STENCIL8 => Ok(DEPTH_STENCIL)
  }

  /** formatDataType: the per-channel element type of a format. Regular names and
      depth names get the type their bit depth and kind call for; the shared-exponent,
      10-bit and depth-stencil packings get their packed types, while RGB565, RGB5_A1
      and RGBA4 are answered with GL_UNSIGNED_BYTE; an illegal cast is reported and
      answered with GL_RGBA (which is not even a data type). */
  function FormatDataType(f: FormatValue): (r: Reported<DataType>)
    ensures f.Enumerator? ==> r.Ok?
    ensures f.Enumerator? && NamedType(NameOf(f.format)).Some? ==> r.value == NamedType(NameOf(f.format)).value
    ensures f == Enumerator(R11F_G11F_B10F) ==> r == Ok(UNSIGNED_INT_10F_11F_11F_REV)
    ensures f == Enumerator(RGB9_E5) ==> r == Ok(UNSIGNED_INT_5_9_9_9_REV)
    ensures f == Enumerator(RGB10_A2) || f == Enumerator(RGB10_A2UI) ==> r == Ok(UNSIGNED_INT_2_10_10_10_REV)
    ensures f == Enumerator(DEPTH24_STENCIL8) ==> r == Ok(UNSIGNED_INT_24_8)
    ensures f == Enumerator(DEPTH32F_STENCIL8) ==> r == Ok(FLOAT_32_UNSIGNED_INT_24_8_REV)
    ensures f == Enumerator(RGB565) || f == Enumerator(RGB5_A1) || f == Enumerator(RGBA4) ==> r == Ok(UNSIGNED_BYTE)
    ensures f.IllegalCast? ==> r == Error(GL_RGBA)
  {
    match f
    case IllegalCast => Error(GL_RGBA)
    case Enumerator(format) =>
      match format
      case R8 => Ok(UNSIGNED_BYTE)
      case R8_SNORM => Ok(BYTE)
      case R16F => Ok(HALF_FLOAT)
      case R32F => Ok(FLOAT)
      case R8UI => Ok(UNSIGNED_BYTE)
      case R8I => Ok(BYTE)
      case R16UI => Ok(UNSIGNED_SHORT)
      case R16I => Ok(SHORT)
      case R32UI => Ok(UNSIGNED_INT)
      case R32I => Ok(INT)
      case RG8 => Ok(UNSIGNED_BYTE)
      case RG8_SNORM => Ok(BYTE)
      case RG16F => Ok(HALF_FLOAT)
      case RG32F => Ok(FLOAT)
      case RG8UI => Ok(UNSIGNED_BYTE)
      case RG8I => Ok(BYTE)
      case RG16UI => Ok(UNSIGNED_SHORT)
      case RG16I => Ok(SHORT)
      case RG32UI => Ok(UNSIGNED_INT)
      case RG32I => Ok(INT)
      case RGB8 => Ok(UNSIGNED_BYTE)
      case SRGB8 => Ok(UNSIGNED_BYTE)
      case RGB565 => Ok(UNSIGNED_BYTE)
      case RGB8_SNORM => Ok(BYTE)
      case R11F_G11F_B10F => Ok(UNSIGNED_INT_10F_11F_11F_REV)
      case RGB9_E5 => Ok(UNSIGNED_INT_5_9_9_9_REV)
      case RGB16F => Ok(HALF_FLOAT)
      case RGB32F => Ok(FLOAT)
      case RGB8UI => Ok(UNSIGNED_BYTE)
      case RGB8I => Ok(BYTE)
      case RGB16UI => Ok(UNSIGNED_SHORT)
      case RGB16I => Ok(SHORT)
      case RGB32UI => Ok(UNSIGNED_INT)
      case RGB32I => Ok(INT)
      case RGBA8 => Ok(UNSIGNED_BYTE)
      case SRGB8_ALPHA8 => Ok(UNSIGNED_BYTE)
      case RGBA8_SNORM => Ok(BYTE)
      case RGB5_A1 => Ok(UNSIGNED_BYTE)
      case RGBA4 => Ok(UNSIGNED_BYTE)
      case RGB10_A2 => Ok(UNSIGNED_INT_2_10_10_10_REV)
      case RGBA16F => Ok(HALF_FLOAT)
      case RGBA32F => Ok(FLOAT)
      case RGBA8UI => Ok(UNSIGNED_BYTE)
      case RGBA8I => Ok(BYTE)
      case RGB10_A2UI => Ok(UNSIGNED_INT_2_10_10_10_REV)
      case RGBA16UI => Ok(UNSIGNED_SHORT)
      case RGBA16I => Ok(SHORT)
      case RGBA32I => Ok(INT)
      case RGBA32UI => Ok(UNSIGNED_INT)
      case DEPTH_COMPONENT16 => Ok(UNSIGNED_SHORT)
      case DEPTH_COMPONENT24 => Ok(UNSIGNED_INT)
      case DEPTH_COMPONENT32F => Ok(FLOAT)
      case DEPTH24_STENCIL8 => Ok(UNSIGNED_INT_24_8)
      case DEPTH32F_STENCIL8 => Ok(FLOAT_32_UNSIGNED_INT_24_8_REV)
  }

  /** The raw enumerant highLevelFormat returns. */
  function LayoutResultCode(r: Reported<Layout>): int
  {
    match r
    case Ok(l) => LayoutCode(l)
    case Error(v) => v
  }

  /** highLevelFormatChannels(highLevelFormat(f)): the element count per pixel that
      the read-back buffers of a texture of format f are sized with. */
  function Channels(f: ColorBufferFormat): (n: nat)
    ensures 1 <= n <= 4
    ensures n == HighLevelFormatChannels(LayoutResultCode(HighLevelFormat(Enumerator(f)))).value
  {
    var r := HighLevelFormatChannels(LayoutResultCode(HighLevelFormat(Enumerator(f))));
    assert r.Ok?;
    r.value
  }

  // ---------------------------------------------------------------------------
  // Properties.

  /** For every colour format, the channel count of its layout is the channel
      count its name prefix announces (R = 1, RG = 2, RGB = 3, RGBA = 4); depth
      formats have one channel and depth-stencil formats two. */
  lemma ChannelsMatchName(f: ColorBufferFormat)
    ensures NameOf(f).Regular? || NameOf(f).Packed? ==> Channels(f) == NameOf(f).channels
    ensures NameOf(f).Depth? ==> Channels(f) == 1
    ensures NameOf(f).DepthStencil? ==> Channels(f) == 2
  {
    var n := NameOf(f);
    var l := NamedLayout(n);
    assert HighLevelFormat(Enumerator(f)) == Ok(l);
    assert LayoutOf(LayoutCode(l)) == Some(l);
  }

  /** Every layout the format lookup can return is one the channel lookup knows,
      and the fallback GL_RGBA of the format lookup is counted as RGBA, 4 channels. */
  lemma FallbackIsRgba(f: FormatValue)
    ensures HighLevelFormatChannels(LayoutResultCode(HighLevelFormat(f))).Ok?
    ensures f.IllegalCast? ==> HighLevelFormatChannels(LayoutResultCode(HighLevelFormat(f))) == Ok(4)
  {
    match f
    case IllegalCast =>
      assert LayoutOf(GL_RGBA) == Some(RGBA);
    case Enumerator(g) =>
      var l := NamedLayout(NameOf(g));
      assert LayoutOf(LayoutCode(l)) == Some(l);
  }

  /** The layout enumerants are pairwise distinct, so the channel lookup is a
      function of the layout. */
  lemma LayoutCodeInjective(a: Layout, b: Layout)
    ensures LayoutCode(a) == LayoutCode(b) ==> a == b
  {
    if LayoutCode(a) == LayoutCode(b) {
      assert LayoutOf(LayoutCode(a)) == Some(a);
    }
  }
}

=== FILE: gl.dfy ===
/** The graphics driver as the model sees it: every OpenGL call the core makes is
    an event appended to a trace, native object names come from a counter, and
    what the driver decides on its own (compile, validate and link status, info
    logs, uniform locations) is given by a fixed oracle. The alert channel of
    ColorGrading/alerts.h is part of the same trace, so the order of messages and
    driver calls can be stated. */
module Gl {
  import opened Wrappers
  import F = Formats

  newtype byte = x: int | 0 <= x < 256

  /** Severity of a message on the alert channel: info/infod, warning, error or a
      failed assert with a message, and fatal/assertFatal (which ends the process). */
  datatype Severity = InfoMessage | WarningMessage | ErrorMessage | FatalMessage

  /** How a call ended: it returned, or an assertFatal ended the process. */
  datatype Outcome = Continued | Exited

  datatype TexTarget = Texture2D | Texture3D | TextureCubeMap | CubeMapFace(face: nat)
  datatype TexParam = MinFilter | MaxLevel | WrapR | WrapS | WrapT
  datatype ParamValue = Linear | LinearMipmapLinear | ClampToEdge | Repeat | Level(n: int)

  /** The element type a read-back asks for: readFloats or readBytes. */
  datatype ReadType = FloatElements | ByteElements

  /** Shader stages of the pipeline (ProgramStage in ColorGrading/materials.h). */
  datatype ProgramStage = Fragment | Vertex | Geometry

  /** A uniform payload; float components are kept as their bit patterns. */
  datatype UniformValue =
    | Floats(bits: seq<bv32>)
    | Ints(ints: seq<int>)
    | UInts(uints: seq<nat>)
    | Matrices(order: nat, matrixBits: seq<bv32>)

  datatype Call =
    // textures
    | GenTexture(name: nat)
    | BindTexture(target: TexTarget, name: nat)
    | TexImage2D(target: TexTarget, level: int, format: F.ColorBufferFormat,
                 width: int, height: int, source: Option<nat>)
    | TexImage3D(target: TexTarget, level: int, format: F.ColorBufferFormat,
                 width: int, height: int, depth: int, source: Option<nat>)
    | TexParameter(target: TexTarget, param: TexParam, value: ParamValue)
    | GenerateMipmap(target: TexTarget)
    | GetTexImage(target: TexTarget, level: int, format: F.ColorBufferFormat, elements: ReadType)
    // render buffers
    | GenRenderbuffer(name: nat)
    | BindRenderbuffer(name: nat)
    | RenderbufferStorage(rbFormat: F.RenderBufferFormat, width: int, height: int)
    // shader-storage buffers; BindBuffer(0) unbinds
    | GenBuffer(name: nat)
    | BindBuffer(name: nat)
    | BufferData(size: int, data: Option<seq<byte>>)
    | BindBufferBase(index: int, name: nat)
    | MapBufferReadOnly
    | UnmapBuffer
    // shaders and programs
    | CreateShader(stage: ProgramStage, name: nat)
    | ShaderSource(name: nat, text: string)
    | CompileShader(name: nat)
    | GetCompileStatus(name: nat)
    | GetShaderInfoLog(name: nat)
    | CreateProgram(name: nat)
    | AttachShader(program: nat, shader: nat)
    | LinkProgram(name: nat)
    | GetValidateStatus(name: nat)
    | GetLinkStatus(name: nat)
    | GetProgramInfoLog(name: nat)
    | DeleteShader(name: nat)
    | DeleteProgram(name: nat)
    | UseProgram(name: nat)
    | GetUniformLocation(program: nat, uniform: string)
    | SetUniform(location: int, payload: UniformValue)
    | ActiveTexture(unit: int)
    // alert channel
    | Alert(severity: Severity, message: string)
    | DebugTrap

  /** What the driver decides by itself, per object name. */
  datatype Driver = Driver(
    compiles: nat -> bool,
    validates: nat -> bool,
    links: nat -> bool,
    infoLog: nat -> string,
    uniformLocation: (nat, string) -> int)

  /** Regrouping a trace that grew by two pieces. */
  lemma AppendAssoc(t: seq<Call>, u: seq<Call>, v: seq<Call>)
    ensures t + u + v == t + (u + v)
  {
  }

  /** The one graphics context: the calls issued so far and the next free name. */
  class GlContext {
    var trace: seq<Call>
    var nextName: nat
    const driver: Driver

    constructor (driver: Driver)
      ensures trace == [] && nextName == 1 && this.driver == driver
    {
      trace := [];
      nextName := 1;
      this.driver := driver;
    }

    /** Issues one call. */
    method Issue(c: Call)
      modifies this
      ensures trace == old(trace) + [c] && nextName == old(nextName)
    {
      trace := trace + [c];
    }

    /** Draws a fresh object name (glGen*, glCreate*). */
    method NewName() returns (name: nat)
      modifies this
      ensures name == old(nextName) && nextName == old(nextName) + 1 && trace == old(trace)
    {
      name := nextName;
      nextName := nextName + 1;
    }
  }
}

=== FILE: materials.dfy ===
/** The shader and program cache of ColorGrading/materials.cpp, as pure functions.

    The four global maps become one Cache value. Every operation is a function
    from the cache, the driver oracle and the next free object name to a
    CacheStep: the new cache, the driver calls issued in order, the next free
    name and the id returned. The file system is an input: how paths are
    sanitized, what a file contains, and which files reading a shader touched. */
module Materials {
  import opened Wrappers
  import opened Gl

  type Path = string
  type Key = string

  datatype Shader = Shader(filePath: Path, stage: ProgramStage)

  /** What the cache learns from the file system: the sanitized form of a path,
      a file's text (None when it cannot be opened), and the files that reading
      a shader at a sanitized path records. */
  datatype FileSystem = FileSystem(
    sanitize: Path -> Path,
    contents: Path -> Option<string>,
    filesRead: Path -> seq<Path>)

  /** shaderCache, programCache, fileKeyAssociation and shaderSourceFiles. */
  datatype Cache = Cache(
    shaders: map<Key, nat>,
    programs: map<Key, nat>,
    fileKeys: map<Path, seq<Key>>,
    sourceFiles: map<Key, seq<Path>>)

  datatype CacheStep = CacheStep(cache: Cache, calls: seq<Call>, next: nat, id: nat)

  /** The cache before any fetch. */
  const EmptyCache := Cache(map[], map[], map[], map[])

  // ---------------------------------------------------------------------------
  // Keys

  /** The characters shaderKey appends for a stage: the low bytes of the stage's
      GLenum (0x8B30, 0x8B31, 0x8DD9), up to the first zero byte. */
  function StageTag(stage: ProgramStage): (tag: string)
    ensures |tag| == 2
  {
    match stage
    case Fragment => [0x30 as char, 0x8B as char]
    case Vertex => [0x31 as char, 0x8B as char]
    case Geometry => [0xD9 as char, 0x8D as char]
  }

  /** shaderKey: the unsanitized file path followed by the stage tag. */
  function ShaderKey(s: Shader): Key
  {
    s.filePath + StageTag(s.stage)
  }

  /** The key fetchProgram builds: the shader keys concatenated in order. */
  function ProgramKey(shaders: seq<Shader>): Key
  {
    if |shaders| == 0 then "" else ProgramKey(shaders[..|shaders| - 1]) + ShaderKey(shaders[|shaders| - 1])
  }

  /** Distinct shaders have distinct keys; in particular the same path under two
      stages gives two keys. */
  lemma ShaderKeyInjective(a: Shader, b: Shader)
    ensures ShaderKey(a) == ShaderKey(b) <==> a == b
  {
    if ShaderKey(a) == ShaderKey(b) {
      var n := |a.filePath|;
      assert |b.filePath| == n;
      assert a.filePath == ShaderKey(a)[..n] == ShaderKey(b)[..n] == b.filePath;
      assert StageTag(a.stage) == ShaderKey(a)[n..] == ShaderKey(b)[n..] == StageTag(b.stage);
      assert StageTag(a.stage)[0] == StageTag(b.stage)[0];
    }
  }

  /** The key of a two-shader program is the two shader keys in order. */
  lemma ProgramKeyPair(a: Shader, b: Shader)
    ensures ProgramKey([a, b]) == ShaderKey(a) + ShaderKey(b)
  {
    assert [a, b][..1] == [a];
    assert ProgramKey([a]) == ShaderKey(a) by { assert [a][..0] == []; }
  }

  /** The program key depends on the order of the shaders: swapping two distinct
      shaders whose paths have the same length gives a different key. */
  lemma ProgramKeyOrder(a: Shader, b: Shader)
    requires a != b && |a.filePath| == |b.filePath|
    ensures ProgramKey([a, b]) != ProgramKey([b, a])
  {
    ProgramKeyPair(a, b);
    ProgramKeyPair(b, a);
    var n := |ShaderKey(a)|;
    if ProgramKey([a, b]) == ProgramKey([b, a]) {
      assert ShaderKey(a) == ProgramKey([a, b])[..n] == ProgramKey([b, a])[..n] == ShaderKey(b);
      ShaderKeyInjective(a, b);
    }
  }

  /** Without equally long paths the order can be lost: when b's path is a's
      key followed by a's path, under a's stage, [a, b] and [b, a] share a key. */
  lemma ProgramKeySwapCollision(a: Shader)
    ensures var b := Shader(ShaderKey(a) + a.filePath, a.stage);
      a != b && [a, b] != [b, a] && ProgramKey([a, b]) == ProgramKey([b, a])
  {
    var b := Shader(ShaderKey(a) + a.filePath, a.stage);
    assert |b.filePath| > |a.filePath|;
    ProgramKeyPair(a, b);
    ProgramKeyPair(b, a);
    assert ShaderKey(b) == ShaderKey(a) + ShaderKey(a);
  }

  /** Concatenation is not injective: a two-shader program and a one-shader
      program can share a key, when a path contains a stage tag. */
  lemma ProgramKeyCollision()
    ensures var a, b := Shader("a", Fragment), Shader("b", Fragment);
      var c := Shader("a" + StageTag(Fragment) + "b", Fragment);
      [a, b] != [c] && ProgramKey([a, b]) == ProgramKey([c])
  {
    var a, b := Shader("a", Fragment), Shader("b", Fragment);
    var c := Shader("a" + StageTag(Fragment) + "b", Fragment);
    assert [a, b][..1] == [a] && [a][..0] == [] && [c][..0] == [];
    assert ProgramKey([a]) == ShaderKey(a);
    assert ProgramKey([a, b]) == ShaderKey(a) + ShaderKey(b);
    assert ProgramKey([c]) == ShaderKey(c);
  }

  // ---------------------------------------------------------------------------
  // Association lists

  /** map::operator[] on a read: the stored list, or the empty list it inserts. */
  function Lookup<K, V>(m: map<K, seq<V>>, k: K): seq<V>
  {
    if k in m then m[k] else []
  }

  function Repeat<T>(x: T, n: nat): (r: seq<T>)
    ensures |r| == n && forall i :: 0 <= i < n ==> r[i] == x
  {
    if n == 0 then [] else Repeat(x, n - 1) + [x]
  }

  /** `fileKeyAssociation[f].push_back(key)` for every f in `files`, in order. */
  function Associate(m: map<Path, seq<Key>>, files: seq<Path>, key: Key): map<Path, seq<Key>>
  {
    if |files| == 0 then m
    else
      var m' := Associate(m, files[..|files| - 1], key);
      var f := files[|files| - 1];
      m'[f := Lookup(m', f) + [key]]
  }

  /** Associating appends `key` once per occurrence of a file to that file's list,
      creates a list for files seen for the first time, and touches nothing else. */
  lemma AssociateEffect(m: map<Path, seq<Key>>, files: seq<Path>, key: Key)
    ensures Associate(m, files, key).Keys == m.Keys + set f | f in files
    ensures forall f :: Lookup(Associate(m, files, key), f) == Lookup(m, f) + Repeat(key, multiset(files)[f])
  {
    AssociateKeys(m, files, key);
    forall f
      ensures Lookup(Associate(m, files, key), f) == Lookup(m, f) + Repeat(key, multiset(files)[f])
    {
      AssociateLookup(m, files, key, f);
    }
  }

  lemma {:induction false} AssociateKeys(m: map<Path, seq<Key>>, files: seq<Path>, key: Key)
    ensures Associate(m, files, key).Keys == m.Keys + set f | f in files
  {
    if |files| > 0 {
      var init, last := files[..|files| - 1], files[|files| - 1];
      assert files == init + [last];
      AssociateKeys(m, init, key);
      assert (set f | f in files) == (set f | f in init) + {last};
    }
  }

  lemma {:induction false} AssociateLookup(m: map<Path, seq<Key>>, files: seq<Path>, key: Key, f: Path)
    ensures Lookup(Associate(m, files, key), f) == Lookup(m, f) + Repeat(key, multiset(files)[f])
  {
    if |files| > 0 {
      var init, last := files[..|files| - 1], files[|files| - 1];
      assert files == init + [last];
      assert multiset(files) == multiset(init) + multiset{last};
      AssociateLookup(m, init, key, f);
      var m0 := Associate(m, init, key);
      assert Associate(m, files, key) == m0[last := Lookup(m0, last) + [key]];
      if f == last {
        assert multiset(files)[f] == multiset(init)[f] + 1;
        assert Repeat(key, multiset(init)[f] + 1) == Repeat(key, multiset(init)[f]) + [key];
      } else {
        assert multiset(files)[f] == multiset(init)[f];
      }
    }
  }

  // ---------------------------------------------------------------------------
  // Shaders

  /** readWithIncludes: the file's text, or an empty text and a warning when the
      file cannot be opened. */
  function SourceRead(fs: FileSystem, path: Path): (string, seq<Call>)
  {
    match fs.contents(path)
    case Some(text) => (text, [])
    case None => ("", [Alert(WarningMessage, "Could not read file '" + path + "'")])
  }

  /** compileShader: create, upload the text, compile, query the status, and only
      warn with the info log when compilation failed. The id is returned either way. */
  function ShaderCompiled(driver: Driver, text: string, stage: ProgramStage, id: nat): seq<Call>
  {
    [CreateShader(stage, id), ShaderSource(id, text), CompileShader(id), GetCompileStatus(id)]
    + (if driver.compiles(id) then [] else [GetShaderInfoLog(id), Alert(WarningMessage, driver.infoLog(id))])
  }

  /** fetchShader */
  function ShaderFetched(fs: FileSystem, driver: Driver, c: Cache, shader: Shader, next: nat): (r: CacheStep)
    ensures r.next >= next
  {
    var key := ShaderKey(shader);
    if key in c.shaders then CacheStep(c, [], next, c.shaders[key])
    else
      var path := fs.sanitize(shader.filePath);
      var (text, readCalls) := SourceRead(fs, path);
      var files := fs.filesRead(path);
      var cache := c.(shaders := c.shaders[key := next],
                      fileKeys := Associate(c.fileKeys, files, key),
                      sourceFiles := c.sourceFiles[key := files]);
      CacheStep(cache, readCalls + ShaderCompiled(driver, text, shader.stage, next), next + 1, next)
  }

  /** The cache invariant every operation keeps: every cached shader has its list
      of source files, and every cached id was drawn before `next`. */
  predicate Valid(c: Cache, next: nat)
  {
    && c.shaders.Keys <= c.sourceFiles.Keys
    && (forall k :: k in c.shaders ==> c.shaders[k] < next)
    && (forall k :: k in c.programs ==> c.programs[k] < next)
  }

  /** fetchShader is memoised: a second fetch returns the same id, issues nothing
      and draws no name. */
  lemma ShaderFetchMemoised(fs: FileSystem, driver: Driver, c: Cache, shader: Shader, next: nat)
    ensures var r := ShaderFetched(fs, driver, c, shader, next);
      ShaderFetched(fs, driver, r.cache, shader, r.next) == CacheStep(r.cache, [], r.next, r.id)
  {
  }

  /** On a miss fetchShader compiles once with a fresh name, caches that name even
      when the driver rejects the shader (it only warns), and records the files
      read for the key. */
  lemma ShaderMissCompiles(fs: FileSystem, driver: Driver, c: Cache, shader: Shader, next: nat)
    requires Valid(c, next) && ShaderKey(shader) !in c.shaders
    ensures var r := ShaderFetched(fs, driver, c, shader, next); var path := fs.sanitize(shader.filePath);
      && r.id == next && r.next == next + 1
      && r.id !in c.shaders.Values
      && r.cache.shaders == c.shaders[ShaderKey(shader) := next]
      && r.cache.sourceFiles == c.sourceFiles[ShaderKey(shader) := fs.filesRead(path)]
      && r.cache.fileKeys == Associate(c.fileKeys, fs.filesRead(path), ShaderKey(shader))
      && r.cache.programs == c.programs
      && CreateShader(shader.stage, next) in r.calls
      && (!driver.compiles(next) ==> Alert(WarningMessage, driver.infoLog(next)) in r.calls)
  {
  }

  lemma ShaderFetchedValid(fs: FileSystem, driver: Driver, c: Cache, shader: Shader, next: nat)
    requires Valid(c, next)
    ensures var r := ShaderFetched(fs, driver, c, shader, next);
      && Valid(r.cache, r.next)
      && ShaderKey(shader) in r.cache.shaders && r.id == r.cache.shaders[ShaderKey(shader)]
      && c.shaders.Keys <= r.cache.shaders.Keys
      && (forall k :: k in c.shaders ==> r.cache.shaders[k] == c.shaders[k])
      && r.cache.programs == c.programs
  {
  }

  /** Fetching the same path under two stages compiles two shaders and keeps two
      cache entries with different ids. */
  lemma TwoStagesTwoEntries(fs: FileSystem, driver: Driver, c: Cache, path: Path, s1: ProgramStage, s2: ProgramStage, next: nat)
    requires Valid(c, next) && s1 != s2
    requires ShaderKey(Shader(path, s1)) !in c.shaders && ShaderKey(Shader(path, s2)) !in c.shaders
    ensures var r1 := ShaderFetched(fs, driver, c, Shader(path, s1), next);
      var r2 := ShaderFetched(fs, driver, r1.cache, Shader(path, s2), r1.next);
      && ShaderKey(Shader(path, s1)) in r2.cache.shaders && ShaderKey(Shader(path, s2)) in r2.cache.shaders
      && r1.id != r2.id
  {
    ShaderKeyInjective(Shader(path, s1), Shader(path, s2));
  }

  // ---------------------------------------------------------------------------
  // Programs

  /** The body of compileProgram's loop for the first |shaders| shaders: fetch
      each one and attach it to `program`. */
  function ShadersAttached(fs: FileSystem, driver: Driver, c: Cache, program: nat, shaders: seq<Shader>, next: nat): (r: CacheStep)
    ensures r.next >= next && r.id == program
  {
    if |shaders| == 0 then CacheStep(c, [], next, program)
    else
      var prev := ShadersAttached(fs, driver, c, program, shaders[..|shaders| - 1], next);
      var f := ShaderFetched(fs, driver, prev.cache, shaders[|shaders| - 1], prev.next);
      CacheStep(f.cache, prev.calls + (f.calls + [AttachShader(program, f.id)]), f.next, program)
  }

  /** One more iteration of the attach loop. */
  lemma AttachedStep(fs: FileSystem, driver: Driver, c: Cache, program: nat, shaders: seq<Shader>, i: nat, next: nat)
    requires i < |shaders|
    ensures var prev := ShadersAttached(fs, driver, c, program, shaders[..i], next);
      var f := ShaderFetched(fs, driver, prev.cache, shaders[i], prev.next);
      ShadersAttached(fs, driver, c, program, shaders[..i + 1], next)
        == CacheStep(f.cache, prev.calls + (f.calls + [AttachShader(program, f.id)]), f.next, program)
  {
    assert shaders[..i + 1][..i] == shaders[..i];
  }

  /** Link, then query validate and link status, warning with the info log for
      each that fails. */
  function LinkCalls(driver: Driver, program: nat): seq<Call>
  {
    var log := [GetProgramInfoLog(program), Alert(WarningMessage, driver.infoLog(program))];
    [LinkProgram(program), GetValidateStatus(program)] + (if driver.validates(program) then [] else log)
    + [GetLinkStatus(program)] + (if driver.links(program) then [] else log)
  }

  /** compileProgram: create the program first, then fetch and attach each shader. */
  function ProgramCompiled(fs: FileSystem, driver: Driver, c: Cache, shaders: seq<Shader>, next: nat): (r: CacheStep)
    ensures r.id == next && r.next > next
  {
    var attached := ShadersAttached(fs, driver, c, next, shaders, next + 1);
    CacheStep(attached.cache, [CreateProgram(next)] + attached.calls + LinkCalls(driver, next), attached.next, next)
  }

  /** The association loop of fetchProgram: for every shader, in order, append the
      program key to the list of every source file recorded for that shader (the
      lookup inserts an empty list for an unknown shader key). */
  function ProgramAssociated(fileKeys: map<Path, seq<Key>>, sourceFiles: map<Key, seq<Path>>,
                             shaders: seq<Shader>, key: Key): (map<Path, seq<Key>>, map<Key, seq<Path>>)
  {
    if |shaders| == 0 then (fileKeys, sourceFiles)
    else
      var (fk, sf) := ProgramAssociated(fileKeys, sourceFiles, shaders[..|shaders| - 1], key);
      var sk := ShaderKey(shaders[|shaders| - 1]);
      var sf' := if sk in sf then sf else sf[sk := []];
      (Associate(fk, sf'[sk], key), sf')
  }

  /** fetchProgram */
  function ProgramFetched(fs: FileSystem, driver: Driver, c: Cache, shaders: seq<Shader>, next: nat): (r: CacheStep)
    ensures r.next >= next
  {
    var key := ProgramKey(shaders);
    if key in c.programs then CacheStep(c, [], next, c.programs[key])
    else
      var compiled := ProgramCompiled(fs, driver, c, shaders, next);
      var d := compiled.cache;
      var (fk, sf) := ProgramAssociated(d.fileKeys, d.sourceFiles, shaders, key);
      CacheStep(d.(programs := d.programs[key := compiled.id], fileKeys := fk, sourceFiles := sf),
                compiled.calls, compiled.next, compiled.id)
  }

  lemma {:induction false} ShadersAttachedValid(fs: FileSystem, driver: Driver, c: Cache, program: nat, shaders: seq<Shader>, next: nat)
    requires Valid(c, next)
    ensures var r := ShadersAttached(fs, driver, c, program, shaders, next);
      && Valid(r.cache, r.next)
      && (forall s :: s in shaders ==> ShaderKey(s) in r.cache.shaders)
      && c.shaders.Keys <= r.cache.shaders.Keys
      && (forall k :: k in c.shaders ==> r.cache.shaders[k] == c.shaders[k])
      && r.cache.programs == c.programs
  {
    if |shaders| > 0 {
      var init, last := shaders[..|shaders| - 1], shaders[|shaders| - 1];
      assert shaders == init + [last];
      ShadersAttachedValid(fs, driver, c, program, init, next);
      var prev := ShadersAttached(fs, driver, c, program, init, next);
      ShaderFetchedValid(fs, driver, prev.cache, last, prev.next);
    }
  }

  /** With every shader key known, the association loop only appends the program
      key to file lists: every list keeps its old entries as a prefix and grows by
      copies of the key. */
  lemma {:induction false} ProgramAssociatedAppends(fileKeys: map<Path, seq<Key>>, sourceFiles: map<Key, seq<Path>>,
                                                    shaders: seq<Shader>, key: Key)
    requires forall s :: s in shaders ==> ShaderKey(s) in sourceFiles
    ensures var fk := ProgramAssociated(fileKeys, sourceFiles, shaders, key).0;
      && (forall f :: Lookup(fileKeys, f) <= Lookup(fk, f))
      && (forall f :: (forall k :: k in Lookup(fk, f)[|Lookup(fileKeys, f)|..] ==> k == key))
  {
    if |shaders| > 0 {
      var init, last := shaders[..|shaders| - 1], shaders[|shaders| - 1];
      ProgramAssociatedAppends(fileKeys, sourceFiles, init, key);
      ProgramAssociatedSources(fileKeys, sourceFiles, init, key);
      var fk0 := ProgramAssociated(fileKeys, sourceFiles, init, key).0;
      var files := sourceFiles[ShaderKey(last)];
      AssociateEffect(fk0, files, key);
      var fk := Associate(fk0, files, key);
      assert fk == ProgramAssociated(fileKeys, sourceFiles, shaders, key).0;
      forall f
        ensures Lookup(fileKeys, f) <= Lookup(fk, f)
        ensures forall k :: k in Lookup(fk, f)[|Lookup(fileKeys, f)|..] ==> k == key
      {
        KeyTailGrows(Lookup(fileKeys, f), Lookup(fk0, f), Repeat(key, multiset(files)[f]), key);
      }
    }
  }

  /** A list that extends a base by copies of a key still does after more copies. */
  lemma KeyTailGrows(base: seq<Key>, list: seq<Key>, more: seq<Key>, key: Key)
    requires base <= list && forall k :: k in list[|base|..] ==> k == key
    requires forall i :: 0 <= i < |more| ==> more[i] == key
    ensures base <= list + more && forall k :: k in (list + more)[|base|..] ==> k == key
  {
    assert (list + more)[|base|..] == list[|base|..] + more;
  }

  /** With every shader key known, after the association loop every source file of
      every constituent shader lists the program key. */
  lemma {:induction false} ProgramAssociatedCovers(fileKeys: map<Path, seq<Key>>, sourceFiles: map<Key, seq<Path>>,
                                                   shaders: seq<Shader>, key: Key)
    requires forall s :: s in shaders ==> ShaderKey(s) in sourceFiles
    ensures var fk := ProgramAssociated(fileKeys, sourceFiles, shaders, key).0;
      forall s, f :: s in shaders && f in sourceFiles[ShaderKey(s)] ==> key in Lookup(fk, f)
  {
    if |shaders| > 0 {
      var init, last := shaders[..|shaders| - 1], shaders[|shaders| - 1];
      assert shaders == init + [last];
      ProgramAssociatedCovers(fileKeys, sourceFiles, init, key);
      ProgramAssociatedSources(fileKeys, sourceFiles, init, key);
      var fk0 := ProgramAssociated(fileKeys, sourceFiles, init, key).0;
      var files := sourceFiles[ShaderKey(last)];
      AssociateEffect(fk0, files, key);
      var fk := Associate(fk0, files, key);
      assert fk == ProgramAssociated(fileKeys, sourceFiles, shaders, key).0;
      forall s, f | s in shaders && f in sourceFiles[ShaderKey(s)]
        ensures key in Lookup(fk, f)
      {
        assert Lookup(fk, f) == Lookup(fk0, f) + Repeat(key, multiset(files)[f]);
        if s != last {
          assert s in init;
        } else {
          assert multiset(files)[f] > 0;
          assert Repeat(key, multiset(files)[f])[0] == key;
        }
      }
    }
  }

  /** With every shader key known, the association loop keeps the source-file map. */
  lemma {:induction false} ProgramAssociatedSources(fileKeys: map<Path, seq<Key>>, sourceFiles: map<Key, seq<Path>>,
                                                    shaders: seq<Shader>, key: Key)
    requires forall s :: s in shaders ==> ShaderKey(s) in sourceFiles
    ensures ProgramAssociated(fileKeys, sourceFiles, shaders, key).1 == sourceFiles
  {
    if |shaders| > 0 {
      ProgramAssociatedSources(fileKeys, sourceFiles, shaders[..|shaders| - 1], key);
    }
  }

  /** fetchProgram is memoised like fetchShader. */
  lemma ProgramFetchMemoised(fs: FileSystem, driver: Driver, c: Cache, shaders: seq<Shader>, next: nat)
    ensures var r := ProgramFetched(fs, driver, c, shaders, next);
      ProgramFetched(fs, driver, r.cache, shaders, r.next) == CacheStep(r.cache, [], r.next, r.id)
  {
  }

  /** On a miss fetchProgram creates exactly one program, with a fresh name, before
      anything else; caches it under the program key; leaves every constituent
      shader in the shader cache; and lists the program key under every source
      file of every constituent shader. The invariant is kept. */
  lemma ProgramMissCompiles(fs: FileSystem, driver: Driver, c: Cache, shaders: seq<Shader>, next: nat)
    requires Valid(c, next) && ProgramKey(shaders) !in c.programs
    ensures var r := ProgramFetched(fs, driver, c, shaders, next); var key := ProgramKey(shaders);
      && Valid(r.cache, r.next)
      && r.id == next && r.id !in c.programs.Values && r.calls[0] == CreateProgram(next)
      && r.cache.programs == c.programs[key := next]
      && (forall s :: s in shaders ==> ShaderKey(s) in r.cache.shaders)
      && (forall s, f :: s in shaders && f in r.cache.sourceFiles[ShaderKey(s)] ==> key in Lookup(r.cache.fileKeys, f))
  {
    ProgramMissCache(fs, driver, c, shaders, next);
    ProgramMissValid(fs, driver, c, shaders, next);
    ProgramMissAssociates(fs, driver, c, shaders, next);
  }

  /** The cache part of a miss: the new program gets the fresh name, is created
      first and is cached under the program key. */
  lemma ProgramMissCache(fs: FileSystem, driver: Driver, c: Cache, shaders: seq<Shader>, next: nat)
    requires Valid(c, next) && ProgramKey(shaders) !in c.programs
    ensures var r := ProgramFetched(fs, driver, c, shaders, next);
      && r.id == next && r.id !in c.programs.Values && r.calls[0] == CreateProgram(next)
      && r.cache.programs == c.programs[ProgramKey(shaders) := next]
  {
    ShadersAttachedValid(fs, driver, c, next, shaders, next + 1);
    FreshName(c, next);
    var r := ProgramFetched(fs, driver, c, shaders, next);
    var a := ShadersAttached(fs, driver, c, next, shaders, next + 1);
    assert r.calls == [CreateProgram(next)] + a.calls + LinkCalls(driver, next);
  }

  /** Under the invariant, `next` names no cached shader or program. */
  lemma FreshName(c: Cache, next: nat)
    requires Valid(c, next)
    ensures next !in c.shaders.Values && next !in c.programs.Values
  {
  }

  /** A miss keeps the cache invariant. */
  lemma ProgramMissValid(fs: FileSystem, driver: Driver, c: Cache, shaders: seq<Shader>, next: nat)
    requires Valid(c, next) && ProgramKey(shaders) !in c.programs
    ensures var r := ProgramFetched(fs, driver, c, shaders, next); Valid(r.cache, r.next)
  {
    ShadersAttachedValid(fs, driver, c, next, shaders, next + 1);
    var d := ShadersAttached(fs, driver, c, next, shaders, next + 1).cache;
    ProgramAssociatedSources(d.fileKeys, d.sourceFiles, shaders, ProgramKey(shaders));
  }

  /** The association part of a miss: every constituent shader is cached and
      every one of its source files lists the program key. */
  lemma ProgramMissAssociates(fs: FileSystem, driver: Driver, c: Cache, shaders: seq<Shader>, next: nat)
    requires Valid(c, next) && ProgramKey(shaders) !in c.programs
    ensures var r := ProgramFetched(fs, driver, c, shaders, next); var key := ProgramKey(shaders);
      && (forall s :: s in shaders ==> ShaderKey(s) in r.cache.shaders && ShaderKey(s) in r.cache.sourceFiles)
      && (forall s, f :: s in shaders && f in r.cache.sourceFiles[ShaderKey(s)] ==> key in Lookup(r.cache.fileKeys, f))
  {
    ShadersAttachedValid(fs, driver, c, next, shaders, next + 1);
    var d := ShadersAttached(fs, driver, c, next, shaders, next + 1).cache;
    ProgramAssociatedSources(d.fileKeys, d.sourceFiles, shaders, ProgramKey(shaders));
    ProgramAssociatedCovers(d.fileKeys, d.sourceFiles, shaders, ProgramKey(shaders));
  }

  lemma ProgramFetchedValid(fs: FileSystem, driver: Driver, c: Cache, shaders: seq<Shader>, next: nat)
    requires Valid(c, next)
    ensures var r := ProgramFetched(fs, driver, c, shaders, next); Valid(r.cache, r.next)
  {
    if ProgramKey(shaders) !in c.programs {
      ProgramMissCompiles(fs, driver, c, shaders, next);
    }
  }

  // ---------------------------------------------------------------------------
  // Invalidation

  /** The loop of onFileChanged over the keys listed for the changed file: delete
      and erase each key from the shader cache, then from the program cache. */
  function Evicted(c: Cache, keys: seq<Key>): (Cache, seq<Call>)
  {
    if |keys| == 0 then (c, [])
    else
      var (d, calls) := Evicted(c, keys[..|keys| - 1]);
      var (e, step) := EvictedKey(d, keys[|keys| - 1]);
      (e, calls + step)
  }

  /** One iteration of that loop. */
  function EvictedKey(c: Cache, key: Key): (Cache, seq<Call>)
  {
    var shaderCalls := if key in c.shaders then [DeleteShader(c.shaders[key])] else [];
    var programCalls := if key in c.programs then [DeleteProgram(c.programs[key])] else [];
    (c.(shaders := c.shaders - {key}, programs := c.programs - {key}), shaderCalls + programCalls)
  }

  /** ShaderWatcher::onFileChanged after the watcher has been re-armed. */
  function FileChanged(fs: FileSystem, c: Cache, changed: Path): (Cache, seq<Call>)
  {
    var path := fs.sanitize(changed);
    var keys := Lookup(c.fileKeys, path);
    Evicted(c.(fileKeys := c.fileKeys[path := keys]), keys)
  }

  lemma EvictedEffect(c: Cache, keys: seq<Key>)
    ensures var (d, calls) := Evicted(c, keys); var gone := set k | k in keys;
      && d == c.(shaders := c.shaders - gone, programs := c.programs - gone)
      && (forall call :: call in calls ==>
            (call.DeleteShader? && call.name in c.shaders.Values) || (call.DeleteProgram? && call.name in c.programs.Values))
      && (forall k :: k in gone && k in c.shaders ==> DeleteShader(c.shaders[k]) in calls)
      && (forall k :: k in gone && k in c.programs ==> DeleteProgram(c.programs[k]) in calls)
  {
    EvictedCache(c, keys);
    EvictedCallsSound(c, keys);
    EvictedCallsComplete(c, keys);
  }

  lemma {:induction false} EvictedCache(c: Cache, keys: seq<Key>)
    ensures var gone := set k | k in keys;
      Evicted(c, keys).0 == c.(shaders := c.shaders - gone, programs := c.programs - gone)
  {
    if |keys| > 0 {
      var init, last := keys[..|keys| - 1], keys[|keys| - 1];
      assert keys == init + [last];
      EvictedCache(c, init);
      var gone0 := set k | k in init;
      assert (set k | k in keys) == gone0 + {last};
      var d0 := Evicted(c, init).0;
      assert d0.shaders - {last} == c.shaders - (gone0 + {last});
      assert d0.programs - {last} == c.programs - (gone0 + {last});
    }
  }

  lemma {:induction false} EvictedCallsSound(c: Cache, keys: seq<Key>)
    ensures forall call :: call in Evicted(c, keys).1 ==>
      (call.DeleteShader? && call.name in c.shaders.Values) || (call.DeleteProgram? && call.name in c.programs.Values)
  {
    if |keys| > 0 {
      var init := keys[..|keys| - 1];
      EvictedCallsSound(c, init);
      EvictedCache(c, init);
    }
  }

  lemma {:induction false} EvictedCallsComplete(c: Cache, keys: seq<Key>)
    ensures var calls := Evicted(c, keys).1;
      && (forall k :: k in keys && k in c.shaders ==> DeleteShader(c.shaders[k]) in calls)
      && (forall k :: k in keys && k in c.programs ==> DeleteProgram(c.programs[k]) in calls)
  {
    if |keys| > 0 {
      var init, last := keys[..|keys| - 1], keys[|keys| - 1];
      assert keys == init + [last];
      EvictedCallsComplete(c, init);
      EvictedCache(c, init);
      var calls0 := Evicted(c, init).1;
      assert Evicted(c, keys).1 == calls0 + EvictedKey(Evicted(c, init).0, last).1;
    }
  }

  /** onFileChanged(p) evicts exactly the keys listed under the sanitized p from
      both caches, deleting only ids that were cached; every other entry, and the
      source-file map, stay as they were. The invariant is kept. */
  lemma FileChangedEffect(fs: FileSystem, c: Cache, changed: Path, next: nat)
    ensures var (d, calls) := FileChanged(fs, c, changed);
      var path := fs.sanitize(changed); var gone := set k | k in Lookup(c.fileKeys, path);
      && d.shaders == c.shaders - gone && d.programs == c.programs - gone
      && d.fileKeys == c.fileKeys[path := Lookup(c.fileKeys, path)]
      && d.sourceFiles == c.sourceFiles
      && (forall call :: call in calls ==>
            (call.DeleteShader? && call.name in c.shaders.Values) || (call.DeleteProgram? && call.name in c.programs.Values))
      && (Valid(c, next) ==> Valid(d, next))
  {
    var path := fs.sanitize(changed);
    var keys := Lookup(c.fileKeys, path);
    EvictedEffect(c.(fileKeys := c.fileKeys[path := keys]), keys);
  }

  /** With the files read recorded (each shader's own sanitized file), changing
      that file evicts the shader, whatever its path looked like when fetched. */
  lemma ReadFileChangeEvictsShader(fs: FileSystem, driver: Driver, c: Cache, shader: Shader, changed: Path, next: nat)
    requires Valid(c, next) && ShaderKey(shader) !in c.shaders
    requires fs.filesRead(fs.sanitize(shader.filePath)) == [fs.sanitize(shader.filePath)]
    requires fs.sanitize(changed) == fs.sanitize(shader.filePath)
    ensures var r := ShaderFetched(fs, driver, c, shader, next);
      ShaderKey(shader) !in FileChanged(fs, r.cache, changed).0.shaders
  {
    var r := ShaderFetched(fs, driver, c, shader, next);
    var path := fs.sanitize(shader.filePath);
    AssociateEffect(c.fileKeys, [path], ShaderKey(shader));
    assert multiset([path])[path] == 1;
    assert ShaderKey(shader) in Lookup(r.cache.fileKeys, path);
    FileChangedEffect(fs, r.cache, changed, r.next);
  }

  /** With the files read recorded, a program fetched on a miss is evicted, and
      its id deleted, when any source file of one of its shaders changes. */
  lemma ProgramFileChangeEvicts(fs: FileSystem, driver: Driver, c: Cache, shaders: seq<Shader>, s: Shader, changed: Path, next: nat)
    requires Valid(c, next) && ProgramKey(shaders) !in c.programs && s in shaders
    requires var r := ProgramFetched(fs, driver, c, shaders, next);
      ShaderKey(s) in r.cache.sourceFiles && fs.sanitize(changed) in r.cache.sourceFiles[ShaderKey(s)]
    ensures var r := ProgramFetched(fs, driver, c, shaders, next);
      var e := FileChanged(fs, r.cache, changed);
      ProgramKey(shaders) !in e.0.programs && DeleteProgram(r.id) in e.1
  {
    var r := ProgramFetched(fs, driver, c, shaders, next);
    ProgramMissCache(fs, driver, c, shaders, next);
    ProgramMissAssociates(fs, driver, c, shaders, next);
    ListedProgramEvicted(fs, r.cache, changed, ProgramKey(shaders));
  }

  /** A program key listed under the sanitized changed path is evicted, and the
      program's id deleted. */
  lemma ListedProgramEvicted(fs: FileSystem, c: Cache, changed: Path, key: Key)
    requires key in Lookup(c.fileKeys, fs.sanitize(changed)) && key in c.programs
    ensures var e := FileChanged(fs, c, changed);
      key !in e.0.programs && DeleteProgram(c.programs[key]) in e.1
  {
    var path := fs.sanitize(changed);
    var keys := Lookup(c.fileKeys, path);
    EvictedEffect(c.(fileKeys := c.fileKeys[path := keys]), keys);
  }

  /** No file list and no source list holds anything. */
  predicate Unassociated(c: Cache)
  {
    && (forall p :: p in c.fileKeys ==> c.fileKeys[p] == [])
    && (forall k :: k in c.sourceFiles ==> c.sourceFiles[k] == [])
  }

  /** readWithIncludes as written never records a file, and then fetches keep
      every list empty... */
  lemma AsWrittenShaderFetchUnassociated(fs: FileSystem, driver: Driver, c: Cache, shader: Shader, next: nat)
    requires forall p :: fs.filesRead(p) == []
    requires Unassociated(c)
    ensures Unassociated(ShaderFetched(fs, driver, c, shader, next).cache)
  {
  }

  lemma {:induction false} AsWrittenAttachUnassociated(fs: FileSystem, driver: Driver, c: Cache, program: nat, shaders: seq<Shader>, next: nat)
    requires forall p :: fs.filesRead(p) == []
    requires Unassociated(c)
    ensures Unassociated(ShadersAttached(fs, driver, c, program, shaders, next).cache)
  {
    if |shaders| > 0 {
      AsWrittenAttachUnassociated(fs, driver, c, program, shaders[..|shaders| - 1], next);
    }
  }

  lemma {:induction false} AsWrittenProgramAssociationEmpty(fileKeys: map<Path, seq<Key>>, sourceFiles: map<Key, seq<Path>>,
                                                            shaders: seq<Shader>, key: Key)
    requires forall k :: k in sourceFiles ==> sourceFiles[k] == []
    ensures var (fk, sf) := ProgramAssociated(fileKeys, sourceFiles, shaders, key);
      fk == fileKeys && forall k :: k in sf ==> sf[k] == []
  {
    if |shaders| > 0 {
      AsWrittenProgramAssociationEmpty(fileKeys, sourceFiles, shaders[..|shaders| - 1], key);
    }
  }

  lemma AsWrittenProgramFetchUnassociated(fs: FileSystem, driver: Driver, c: Cache, shaders: seq<Shader>, next: nat)
    requires forall p :: fs.filesRead(p) == []
    requires Unassociated(c)
    ensures Unassociated(ProgramFetched(fs, driver, c, shaders, next).cache)
  {
    if ProgramKey(shaders) !in c.programs {
      AsWrittenAttachUnassociated(fs, driver, c, next, shaders, next + 1);
      var d := ProgramCompiled(fs, driver, c, shaders, next).cache;
      AsWrittenProgramAssociationEmpty(d.fileKeys, d.sourceFiles, shaders, ProgramKey(shaders));
    }
  }

  /** ...so, as written, a file change never evicts anything: the caches only ever
      grow and an edited shader is never recompiled. */
  lemma AsWrittenNothingIsEvicted(fs: FileSystem, c: Cache, changed: Path)
    requires Unassociated(c)
    ensures var (d, calls) := FileChanged(fs, c, changed);
      d.shaders == c.shaders && d.programs == c.programs && calls == [] && Unassociated(d)
  {
    var path := fs.sanitize(changed);
    assert Lookup(c.fileKeys, path) == [];
  }

  // ---------------------------------------------------------------------------
  // Using a program

  /** Program::bind */
  function ProgramBound(fs: FileSystem, driver: Driver, c: Cache, shaders: seq<Shader>, next: nat): CacheStep
  {
    var f := ProgramFetched(fs, driver, c, shaders, next);
    f.(calls := f.calls + [UseProgram(f.id)])
  }

  /** The UNIFORM_LOC rule followed by the write: look the uniform up in the
      fetched program; location -1 logs an info message and writes nothing. */
  function UniformSet(fs: FileSystem, driver: Driver, c: Cache, shaders: seq<Shader>, uniform: string,
                      value: UniformValue, next: nat): CacheStep
  {
    var f := ProgramFetched(fs, driver, c, shaders, next);
    var location := driver.uniformLocation(f.id, uniform);
    var write :=
      if location == -1 then [Alert(InfoMessage, "Skipping uniform '" + uniform + "'. Not found.")]
      else [SetUniform(location, value)];
    f.(calls := f.calls + [GetUniformLocation(f.id, uniform)] + write)
  }

  /** A uniform the driver does not know produces no uniform write, only the info
      message; a known one is written exactly once, last, at its location. */
  lemma UniformWriteRule(fs: FileSystem, driver: Driver, c: Cache, shaders: seq<Shader>, uniform: string,
                         value: UniformValue, next: nat)
    ensures var r := UniformSet(fs, driver, c, shaders, uniform, value, next);
      var f := ProgramFetched(fs, driver, c, shaders, next);
      var location := driver.uniformLocation(f.id, uniform);
      && r.cache == f.cache && r.id == f.id
      && r.calls[..|f.calls|] == f.calls
      && (location == -1 ==> forall k :: |f.calls| <= k < |r.calls| ==> !r.calls[k].SetUniform?)
      && (location == -1 ==> r.calls[|r.calls| - 1].Alert? && r.calls[|r.calls| - 1].severity == InfoMessage)
      && (location != -1 ==> r.calls[|r.calls| - 1] == SetUniform(location, value))
  {
  }
}

=== FILE: shadercache.dfy ===
/** The global shader and program caches of ColorGrading/materials.cpp as one
    object, and Program, the list of shaders that is fetched, bound and given
    uniforms through it. Every method is proved to have exactly the effect that
    the matching function of module Materials describes. */
module ShaderCaches {
  import opened Wrappers
  import opened Gl
  import opened Materials
  import T = Textures

  /** The key loop of fetchProgram: the shader keys concatenated in order. */
  method ProgramKeyOf(shaderList: seq<Shader>) returns (key: Key)
    ensures key == ProgramKey(shaderList)
  {
    key := "";
    for i := 0 to |shaderList|
      invariant key == ProgramKey(shaderList[..i])
    {
      assert shaderList[..i + 1][..i] == shaderList[..i];
      key := key + ShaderKey(shaderList[i]);
    }
    assert shaderList[..|shaderList|] == shaderList;
  }

  class ShaderCache {
    const ctx: GlContext
    const files: FileSystem
    var shaders: map<Key, nat>
    var programs: map<Key, nat>
    var fileKeys: map<Path, seq<Key>>
    var sourceFiles: map<Key, seq<Path>>

    function Model(): Cache
      reads this
    {
      Cache(shaders, programs, fileKeys, sourceFiles)
    }

    constructor (ctx: GlContext, files: FileSystem)
      ensures this.ctx == ctx && this.files == files && Model() == EmptyCache
    {
      this.ctx := ctx;
      this.files := files;
      shaders, programs, fileKeys, sourceFiles := map[], map[], map[], map[];
    }

    /** readWithIncludes */
    method ReadWithIncludes(path: Path) returns (text: string)
      modifies ctx
      ensures var (t, calls) := SourceRead(files, path);
        text == t && ctx.trace == old(ctx.trace) + calls && ctx.nextName == old(ctx.nextName)
    {
      var contents := files.contents(path);
      if contents.None? {
        ctx.Issue(Alert(WarningMessage, "Could not read file '" + path + "'"));
        return "";
      }
      text := contents.value;
    }

    /** compileShader */
    method Compile(text: string, stage: ProgramStage) returns (id: nat)
      modifies ctx
      ensures id == old(ctx.nextName) && ctx.nextName == id + 1
      ensures ctx.trace == old(ctx.trace) + ShaderCompiled(ctx.driver, text, stage, id)
    {
      id := ctx.NewName();
      ctx.Issue(CreateShader(stage, id));
      ctx.Issue(ShaderSource(id, text));
      ctx.Issue(CompileShader(id));
      ctx.Issue(GetCompileStatus(id));
      if !ctx.driver.compiles(id) {
        ctx.Issue(GetShaderInfoLog(id));
        ctx.Issue(Alert(WarningMessage, ctx.driver.infoLog(id)));
      }
    }

    /** `fileKeyAssociation[p].push_back(key)` for every p in `paths`. */
    method AssociateAll(paths: seq<Path>, key: Key)
      modifies this
      ensures fileKeys == Associate(old(fileKeys), paths, key)
      ensures shaders == old(shaders) && programs == old(programs) && sourceFiles == old(sourceFiles)
    {
      for i := 0 to |paths|
        invariant fileKeys == Associate(old(fileKeys), paths[..i], key)
        invariant shaders == old(shaders) && programs == old(programs) && sourceFiles == old(sourceFiles)
      {
        assert paths[..i + 1][..i] == paths[..i];
        fileKeys := fileKeys[paths[i] := Lookup(fileKeys, paths[i]) + [key]];
      }
      assert paths[..|paths|] == paths;
    }

    /** fetchShader */
    method FetchShader(shader: Shader) returns (id: nat)
      modifies this, ctx
      ensures var r := ShaderFetched(files, ctx.driver, old(Model()), shader, old(ctx.nextName));
        Model() == r.cache && ctx.trace == old(ctx.trace) + r.calls && ctx.nextName == r.next && id == r.id
    {
      var filePath := files.sanitize(shader.filePath);
      var key := ShaderKey(shader);
      if key !in shaders {
        var readFiles := files.filesRead(filePath);
        var text := ReadWithIncludes(filePath);
        var shaderId := Compile(text, shader.stage);
        shaders := shaders[key := shaderId];
        AssociateAll(readFiles, key);
        sourceFiles := sourceFiles[key := readFiles];
      }
      id := shaders[key];
    }

    /** One iteration of compileProgram's loop: fetch shader i and attach it. */
    method AttachNext(program: nat, shaderList: seq<Shader>, i: nat, ghost c0: Cache, ghost t0: seq<Call>, ghost n0: nat)
      requires i < |shaderList|
      requires var a := ShadersAttached(files, ctx.driver, c0, program, shaderList[..i], n0);
        Model() == a.cache && ctx.trace == t0 + a.calls && ctx.nextName == a.next
      modifies this, ctx
      ensures var a := ShadersAttached(files, ctx.driver, c0, program, shaderList[..i + 1], n0);
        Model() == a.cache && ctx.trace == t0 + a.calls && ctx.nextName == a.next
    {
      ghost var a := ShadersAttached(files, ctx.driver, c0, program, shaderList[..i], n0);
      ghost var f := ShaderFetched(files, ctx.driver, a.cache, shaderList[i], a.next);
      FetchAndAttach(program, shaderList[i]);
      AppendAssoc(t0, a.calls, f.calls + [AttachShader(program, f.id)]);
      AttachedStep(files, ctx.driver, c0, program, shaderList, i, n0);
    }

    /** fetchShader followed by the attach call. */
    method FetchAndAttach(program: nat, shader: Shader)
      modifies this, ctx
      ensures var f := ShaderFetched(files, ctx.driver, old(Model()), shader, old(ctx.nextName));
        Model() == f.cache && ctx.trace == old(ctx.trace) + (f.calls + [AttachShader(program, f.id)]) && ctx.nextName == f.next
    {
      var id := FetchShader(shader);
      ctx.Issue(AttachShader(program, id));
    }

    /** The loop of compileProgram: fetch every shader in order and attach it. */
    method AttachAll(program: nat, shaderList: seq<Shader>)
      modifies this, ctx
      ensures var a := ShadersAttached(files, ctx.driver, old(Model()), program, shaderList, old(ctx.nextName));
        Model() == a.cache && ctx.trace == old(ctx.trace) + a.calls && ctx.nextName == a.next
    {
      ghost var c0, t0, n0 := Model(), ctx.trace, ctx.nextName;
      for i := 0 to |shaderList|
        invariant var a := ShadersAttached(files, ctx.driver, c0, program, shaderList[..i], n0);
          Model() == a.cache && ctx.trace == t0 + a.calls && ctx.nextName == a.next
      {
        AttachNext(program, shaderList, i, c0, t0, n0);
      }
      assert shaderList[..|shaderList|] == shaderList;
    }

    /** compileProgram */
    method CompileProgram(shaderList: seq<Shader>) returns (program: nat)
      modifies this, ctx
      ensures var r := ProgramCompiled(files, ctx.driver, old(Model()), shaderList, old(ctx.nextName));
        Model() == r.cache && ctx.trace == old(ctx.trace) + r.calls && ctx.nextName == r.next && program == r.id
    {
      program := ctx.NewName();
      ghost var r := ProgramCompiled(files, ctx.driver, Model(), shaderList, program);
      ghost var a := ShadersAttached(files, ctx.driver, Model(), program, shaderList, program + 1);
      ghost var attached := a.calls;
      assert r.cache == a.cache && r.next == a.next && r.calls == [CreateProgram(program)] + attached + LinkCalls(ctx.driver, program);
      ctx.Issue(CreateProgram(program));
      AttachAll(program, shaderList);
      Link(program);
      AppendAssoc(old(ctx.trace), [CreateProgram(program)], attached);
      AppendAssoc(old(ctx.trace), [CreateProgram(program)] + attached, LinkCalls(ctx.driver, program));
    }

    /** The link step of compileProgram, with its two status checks. */
    method Link(program: nat)
      modifies ctx
      ensures ctx.trace == old(ctx.trace) + LinkCalls(ctx.driver, program) && ctx.nextName == old(ctx.nextName)
    {
      ctx.Issue(LinkProgram(program));
      ctx.Issue(GetValidateStatus(program));
      if !ctx.driver.validates(program) {
        ctx.Issue(GetProgramInfoLog(program));
        ctx.Issue(Alert(WarningMessage, ctx.driver.infoLog(program)));
      }
      ctx.Issue(GetLinkStatus(program));
      if !ctx.driver.links(program) {
        ctx.Issue(GetProgramInfoLog(program));
        ctx.Issue(Alert(WarningMessage, ctx.driver.infoLog(program)));
      }
    }

    /** fetchProgram */
    method FetchProgram(shaderList: seq<Shader>) returns (id: nat)
      modifies this, ctx
      ensures var r := ProgramFetched(files, ctx.driver, old(Model()), shaderList, old(ctx.nextName));
        Model() == r.cache && ctx.trace == old(ctx.trace) + r.calls && ctx.nextName == r.next && id == r.id
    {
      var key := ProgramKeyOf(shaderList);
      if key !in programs {
        var program := CompileProgram(shaderList);
        programs := programs[key := program];
        AssociateProgram(shaderList, key);
      }
      id := programs[key];
    }

    /** The association loop of fetchProgram. */
    method AssociateProgram(shaderList: seq<Shader>, key: Key)
      modifies this
      ensures (fileKeys, sourceFiles) == ProgramAssociated(old(fileKeys), old(sourceFiles), shaderList, key)
      ensures shaders == old(shaders) && programs == old(programs)
    {
      for i := 0 to |shaderList|
        invariant (fileKeys, sourceFiles) == ProgramAssociated(old(fileKeys), old(sourceFiles), shaderList[..i], key)
        invariant shaders == old(shaders) && programs == old(programs)
      {
        assert shaderList[..i + 1][..i] == shaderList[..i];
        var shaderKey := ShaderKey(shaderList[i]);
        if shaderKey !in sourceFiles {
          sourceFiles := sourceFiles[shaderKey := []];
        }
        AssociateAll(sourceFiles[shaderKey], key);
      }
      assert shaderList[..|shaderList|] == shaderList;
    }

    /** ShaderWatcher::onFileChanged, after the watcher has been re-armed. */
    method OnFileChanged(changed: Path)
      modifies this, ctx
      ensures var (d, calls) := FileChanged(files, old(Model()), changed);
        Model() == d && ctx.trace == old(ctx.trace) + calls && ctx.nextName == old(ctx.nextName)
    {
      var changedPath := files.sanitize(changed);
      var keys := Lookup(fileKeys, changedPath);
      fileKeys := fileKeys[changedPath := keys];
      EvictAll(keys);
    }

    /** The loop of onFileChanged: delete and erase every listed key. */
    method EvictAll(keys: seq<Key>)
      modifies this, ctx
      ensures var (d, calls) := Evicted(old(Model()), keys);
        Model() == d && ctx.trace == old(ctx.trace) + calls && ctx.nextName == old(ctx.nextName)
    {
      for i := 0 to |keys|
        invariant var (d, calls) := Evicted(old(Model()), keys[..i]);
          Model() == d && ctx.trace == old(ctx.trace) + calls && ctx.nextName == old(ctx.nextName)
      {
        assert keys[..i + 1][..i] == keys[..i];
        ghost var calls := Evicted(old(Model()), keys[..i]).1;
        ghost var step := EvictedKey(Model(), keys[i]).1;
        Evict(keys[i]);
        AppendAssoc(old(ctx.trace), calls, step);
      }
      assert keys[..|keys|] == keys;
    }

    /** One key of that loop: delete the shader and the program stored under it,
        then erase the key from both caches. */
    method Evict(key: Key)
      modifies this, ctx
      ensures var (d, calls) := EvictedKey(old(Model()), key);
        Model() == d && ctx.trace == old(ctx.trace) + calls && ctx.nextName == old(ctx.nextName)
    {
      if key in shaders {
        ctx.Issue(DeleteShader(shaders[key]));
      }
      if key in programs {
        ctx.Issue(DeleteProgram(programs[key]));
      }
      shaders := shaders - {key};
      programs := programs - {key};
    }
  }

  /** A program: the ordered list of its shaders, resolved through the cache. */
  class Program {
    const cache: ShaderCache
    const shaders: seq<Shader>

    /** Program() */
    constructor Empty(cache: ShaderCache)
      ensures this.cache == cache && shaders == []
    {
      this.cache := cache;
      shaders := [];
    }

    /** Program(Shader&) */
    constructor Single(cache: ShaderCache, shader: Shader)
      ensures this.cache == cache && shaders == [shader]
    {
      this.cache := cache;
      shaders := [shader];
    }

    /** Program(std::vector<Shader>) */
    constructor (cache: ShaderCache, shaders: seq<Shader>)
      ensures this.cache == cache && this.shaders == shaders
    {
      this.cache := cache;
      this.shaders := shaders;
    }

    /** bind() */
    method Bind()
      modifies cache, cache.ctx
      ensures var r := ProgramBound(cache.files, cache.ctx.driver, old(cache.Model()), shaders, old(cache.ctx.nextName));
        cache.Model() == r.cache && cache.ctx.trace == old(cache.ctx.trace) + r.calls && cache.ctx.nextName == r.next
    {
      var program := cache.FetchProgram(shaders);
      cache.ctx.Issue(UseProgram(program));
    }

    /** set(key, ...): the UNIFORM_LOC lookup and, when found, the write. */
    method Set(uniform: string, value: UniformValue)
      modifies cache, cache.ctx
      ensures var r := UniformSet(cache.files, cache.ctx.driver, old(cache.Model()), shaders, uniform, value, old(cache.ctx.nextName));
        cache.Model() == r.cache && cache.ctx.trace == old(cache.ctx.trace) + r.calls && cache.ctx.nextName == r.next
    {
      var program := cache.FetchProgram(shaders);
      var location := cache.ctx.driver.uniformLocation(program, uniform);
      cache.ctx.Issue(GetUniformLocation(program, uniform));
      if location == -1 {
        cache.ctx.Issue(Alert(InfoMessage, "Skipping uniform '" + uniform + "'. Not found."));
      } else {
        cache.ctx.Issue(SetUniform(location, value));
      }
      ghost var f := ProgramFetched(cache.files, cache.ctx.driver, old(cache.Model()), shaders, old(cache.ctx.nextName));
      AppendAssoc(old(cache.ctx.trace), f.calls, [GetUniformLocation(program, uniform)]);
    }

    /** set(key, location, texture): activate the unit and bind the texture first
        (which realizes it if needed), then point the sampler at the unit. */
    method SetTexture(uniform: string, unit: int, texture: T.ColorBuffer)
      requires texture.ctx == cache.ctx
      modifies cache, cache.ctx, texture
      ensures var b := T.Bound(old(texture.Model()), old(cache.ctx.nextName));
        var u := UniformSet(cache.files, cache.ctx.driver, old(cache.Model()), shaders, uniform, Ints([unit]), b.next);
        && texture.Model() == b.tex && cache.Model() == u.cache && cache.ctx.nextName == u.next
        && cache.ctx.trace == old(cache.ctx.trace) + [ActiveTexture(unit)] + b.calls + u.calls
    {
      cache.ctx.Issue(ActiveTexture(unit));
      texture.Bind();
      Set(uniform, Ints([unit]));
    }
  }
}

=== FILE: storage.dfy ===
/** Render buffers and shader-storage buffers (RenderBufferObject and
    ShaderStorageBufferObject in ColorGrading/buffers.h and buffers.cpp).

    As for textures, each operation is a pure function from the buffer's state
    to its effect, and the class methods are proved to have exactly that effect
    on the object and on the driver trace. */
module Storage {
  import opened Wrappers
  import opened Gl
  import F = Formats

  // ---------------------------------------------------------------------------
  // Render buffers

  datatype RenderState = RenderState(format: F.RenderBufferFormat, width: nat, height: nat, handle: Option<nat>)

  datatype RenderStep = RenderStep(buffer: RenderState, calls: seq<Call>, next: nat)

  /** RenderBufferObject::_sizeChanged: bind, then allocate storage of the current size. */
  function RenderAllocation(r: RenderState, name: nat): seq<Call>
  {
    [BindRenderbuffer(name), RenderbufferStorage(r.format, r.width, r.height)]
  }

  /** handle() of a render buffer: create and allocate on first use. */
  function RenderAcquire(r: RenderState, next: nat): (s: RenderStep)
    ensures s.buffer.handle.Some?
  {
    if r.handle.Some? then RenderStep(r, [], next)
    else RenderStep(r.(handle := Some(next)), [GenRenderbuffer(next)] + RenderAllocation(r, next), next + 1)
  }

  /** BufferObject2DBase::setSize on a render buffer. */
  function RenderResized(r: RenderState, width: nat, height: nat): RenderStep
  {
    if width == r.width && height == r.height then RenderStep(r, [], 0)
    else
      var u := r.(width := width, height := height);
      RenderStep(u, if u.handle.Some? then RenderAllocation(u, u.handle.value) else [], 0)
  }

  /** The first handle() creates exactly one render buffer and gives it storage of
      the stored size; later calls issue nothing and return the same name. */
  lemma RenderAcquireOnce(r: RenderState, next: nat)
    ensures var s := RenderAcquire(r, next);
      && RenderAcquire(s.buffer, s.next) == RenderStep(s.buffer, [], s.next)
      && s.buffer == r.(handle := s.buffer.handle)
      && (r.handle.None? ==> s.calls == [GenRenderbuffer(next), BindRenderbuffer(next), RenderbufferStorage(r.format, r.width, r.height)]
                             && s.buffer.handle == Some(next) && s.next == next + 1)
  {
  }

  /** setSize to the current size does nothing; a new size is stored and
      allocated only when the buffer is realized, always with the new size. */
  lemma RenderResizeRule(r: RenderState, width: nat, height: nat)
    ensures var s := RenderResized(r, width, height);
      && s.buffer == r.(width := width, height := height)
      && (width == r.width && height == r.height ==> s.calls == [])
      && (r.handle.None? ==> s.calls == [])
      && (r.handle.Some? && (width != r.width || height != r.height) ==>
            s.calls == [BindRenderbuffer(r.handle.value), RenderbufferStorage(r.format, width, height)])
  {
  }

  class RenderBuffer {
    const ctx: GlContext
    const format: F.RenderBufferFormat
    var width: nat
    var height: nat
    var handle: Option<nat>

    function Model(): RenderState
      reads this
    {
      RenderState(format, width, height, handle)
    }

    constructor (ctx: GlContext, format: F.RenderBufferFormat, width: nat, height: nat)
      ensures this.ctx == ctx && Model() == RenderState(format, width, height, None)
    {
      this.ctx := ctx;
      this.format := format;
      this.width := width;
      this.height := height;
      this.handle := None;
    }

    /** handle() */
    method Handle() returns (name: nat)
      modifies this, ctx
      ensures var s := RenderAcquire(old(Model()), old(ctx.nextName));
        Model() == s.buffer && ctx.trace == old(ctx.trace) + s.calls && ctx.nextName == s.next
        && Some(name) == s.buffer.handle
    {
      if handle.None? {
        Initialize();
      }
      name := handle.value;
    }

    /** _initialize */
    method Initialize()
      requires handle.None?
      modifies this, ctx
      ensures var s := RenderAcquire(old(Model()), old(ctx.nextName));
        Model() == s.buffer && ctx.trace == old(ctx.trace) + s.calls && ctx.nextName == s.next
    {
      var name := ctx.NewName();
      handle := Some(name);
      ctx.Issue(GenRenderbuffer(name));
      SizeChanged();
    }

    /** _sizeChanged */
    method SizeChanged()
      requires handle.Some?
      modifies ctx
      ensures ctx.trace == old(ctx.trace) + RenderAllocation(Model(), handle.value) && ctx.nextName == old(ctx.nextName)
    {
      ctx.Issue(BindRenderbuffer(handle.value));
      ctx.Issue(RenderbufferStorage(format, width, height));
    }

    /** setSize(width, height) */
    method SetSize(width: nat, height: nat)
      modifies this, ctx
      ensures var s := RenderResized(old(Model()), width, height);
        Model() == s.buffer && ctx.trace == old(ctx.trace) + s.calls && ctx.nextName == old(ctx.nextName)
    {
      if width == this.width && height == this.height {
        return;
      }
      this.width := width;
      this.height := height;
      if handle.Some? {
        SizeChanged();
      }
    }

    /** bind() dereferences the handle without creating it, so it needs a
        realized buffer. */
    method Bind()
      requires handle.Some?
      modifies ctx
      ensures ctx.trace == old(ctx.trace) + [BindRenderbuffer(handle.value)] && ctx.nextName == old(ctx.nextName)
    {
      ctx.Issue(BindRenderbuffer(handle.value));
    }
  }

  // ---------------------------------------------------------------------------
  // Shader-storage buffers

  const ResizeOwnedDataMessage: string :=
    "Resizing SSBO that is cerated from user data would lose the user data."

  /** The size in bytes, the user data the buffer owns (if any), and the handle. */
  datatype StorageState = StorageState(size: nat, data: Option<seq<byte>>, handle: Option<nat>)

  datatype StorageStep = StorageStep(outcome: Outcome, buffer: StorageState, calls: seq<Call>, next: nat)

  /** The re-upload both setters perform on a realized buffer. */
  function StorageUpload(s: StorageState, name: nat): seq<Call>
  {
    [BindBuffer(name), BufferData(s.size, s.data), BindBuffer(0)]
  }

  /** setSize(size) */
  function StorageResized(s: StorageState, size: nat): StorageStep
  {
    if s.data.Some? then StorageStep(Exited, s, [Alert(FatalMessage, ResizeOwnedDataMessage)], 0)
    else
      var u := s.(size := size, data := None);
      StorageStep(Continued, u, if u.handle.Some? then StorageUpload(u, u.handle.value) else [], 0)
  }

  /** setData(size, data) */
  function StorageDataSet(s: StorageState, size: nat, data: Option<seq<byte>>): StorageStep
  {
    var u := s.(size := size, data := data);
    StorageStep(Continued, u, if u.handle.Some? then StorageUpload(u, u.handle.value) else [], 0)
  }

  /** handle() of a storage buffer: create it, then upload through setData when it
      owns data and through setSize otherwise. */
  function StorageAcquire(s: StorageState, next: nat): (r: StorageStep)
    ensures r.outcome == Continued && r.buffer.handle.Some?
  {
    if s.handle.Some? then StorageStep(Continued, s, [], next)
    else
      var u := s.(handle := Some(next));
      var upload := if u.data.Some? then StorageDataSet(u, u.size, u.data) else StorageResized(u, u.size);
      StorageStep(Continued, upload.buffer, [GenBuffer(next)] + upload.calls, next + 1)
  }

  /** setSize on a buffer that owns data ends the process and changes nothing;
      otherwise it sets the size, drops the data, and re-uploads only when realized. */
  lemma StorageResizeRule(s: StorageState, size: nat)
    ensures var r := StorageResized(s, size);
      && (s.data.Some? ==> r.outcome == Exited && r.buffer == s)
      && (s.data.None? ==> r.outcome == Continued && r.buffer == s.(size := size))
      && (s.data.None? && s.handle.None? ==> r.calls == [])
      && (s.data.None? && s.handle.Some? ==>
            r.calls == [BindBuffer(s.handle.value), BufferData(size, None), BindBuffer(0)])
  {
  }

  /** setData replaces size and data whatever the buffer held before, and
      re-uploads the new contents only when realized. */
  lemma StorageDataRule(s: StorageState, size: nat, data: Option<seq<byte>>)
    ensures var r := StorageDataSet(s, size, data);
      && r.outcome == Continued && r.buffer.size == size && r.buffer.data == data && r.buffer.handle == s.handle
      && (s.handle.None? <==> r.calls == [])
      && (s.handle.Some? ==> BufferData(size, data) in r.calls)
  {
    var r := StorageDataSet(s, size, data);
    if s.handle.Some? {
      assert r.calls[1] == BufferData(size, data);
    }
  }

  /** Creating the buffer never hits the fatal path, and the first upload names
      the stored size and data (the source frees that data buffer before the
      upload reads it; memory ownership is not part of this model). */
  lemma StorageAcquireUploadsContents(s: StorageState, next: nat)
    requires s.handle.None?
    ensures var r := StorageAcquire(s, next);
      && r.buffer == s.(handle := Some(next)) && r.next == next + 1
      && r.calls == [GenBuffer(next), BindBuffer(next), BufferData(s.size, s.data), BindBuffer(0)]
  {
  }

  /** The element count of read<T>: the whole elements that fit in the buffer.
      The copy that follows moves `size` bytes, which fills the allocation
      exactly when the size is a multiple of the element size. */
  function ElementCount(size: nat, elementSize: nat): (count: nat)
    requires elementSize > 0
    ensures count * elementSize <= size < (count + 1) * elementSize
    ensures count * elementSize == size <==> size % elementSize == 0
  {
    size / elementSize
  }

  class StorageBuffer {
    const ctx: GlContext
    var size: nat
    var data: Option<seq<byte>>
    var handle: Option<nat>

    function Model(): StorageState
      reads this
    {
      StorageState(size, data, handle)
    }

    constructor (ctx: GlContext, size: nat, data: Option<seq<byte>>)
      ensures this.ctx == ctx && Model() == StorageState(size, data, None)
    {
      this.ctx := ctx;
      this.size := size;
      this.data := data;
      this.handle := None;
    }

    /** handle() */
    method Handle() returns (name: nat)
      modifies this, ctx
      ensures var s := StorageAcquire(old(Model()), old(ctx.nextName));
        Model() == s.buffer && ctx.trace == old(ctx.trace) + s.calls && ctx.nextName == s.next
        && Some(name) == s.buffer.handle
    {
      if handle.None? {
        Initialize();
      }
      name := handle.value;
    }

    /** _initialize */
    method Initialize()
      requires handle.None?
      modifies this, ctx
      ensures var s := StorageAcquire(old(Model()), old(ctx.nextName));
        Model() == s.buffer && ctx.trace == old(ctx.trace) + s.calls && ctx.nextName == s.next
    {
      var name := ctx.NewName();
      handle := Some(name);
      ctx.Issue(GenBuffer(name));
      if data.Some? {
        SetData(size, data);
      } else {
        var _ := SetSize(size);
      }
    }

    /** setSize(size) */
    method SetSize(size: nat) returns (outcome: Outcome)
      modifies this, ctx
      ensures var s := StorageResized(old(Model()), size);
        outcome == s.outcome && Model() == s.buffer && ctx.trace == old(ctx.trace) + s.calls
        && ctx.nextName == old(ctx.nextName)
    {
      if data.Some? {
        ctx.Issue(Alert(FatalMessage, ResizeOwnedDataMessage));
        return Exited;
      }
      outcome := Continued;
      this.size := size;
      this.data := None;
      if handle.Some? {
        ctx.Issue(BindBuffer(handle.value));
        ctx.Issue(BufferData(this.size, this.data));
        ctx.Issue(BindBuffer(0));
      }
    }

    /** setData(size, data) */
    method SetData(size: nat, data: Option<seq<byte>>)
      modifies this, ctx
      ensures var s := StorageDataSet(old(Model()), size, data);
        Model() == s.buffer && ctx.trace == old(ctx.trace) + s.calls && ctx.nextName == old(ctx.nextName)
    {
      this.size := size;
      this.data := data;
      if handle.Some? {
        ctx.Issue(BindBuffer(handle.value));
        ctx.Issue(BufferData(this.size, this.data));
        ctx.Issue(BindBuffer(0));
      }
    }

    /** bind(index): needs a realized buffer, the handle is dereferenced directly. */
    method Bind(index: int)
      requires handle.Some?
      modifies ctx
      ensures ctx.trace == old(ctx.trace) + [BindBufferBase(index, handle.value)] && ctx.nextName == old(ctx.nextName)
    {
      ctx.Issue(BindBufferBase(index, handle.value));
    }

    /** read<T>(): map the realized buffer and return the number of whole
        elements of `elementSize` bytes it holds. */
    method Read(elementSize: nat) returns (count: nat)
      requires handle.Some? && elementSize > 0
      modifies ctx
      ensures count == ElementCount(size, elementSize)
      ensures ctx.trace == old(ctx.trace) + [BindBuffer(handle.value), MapBufferReadOnly, UnmapBuffer]
      ensures ctx.nextName == old(ctx.nextName)
    {
      ctx.Issue(BindBuffer(handle.value));
      ctx.Issue(MapBufferReadOnly);
      count := size / elementSize;
      ctx.Issue(UnmapBuffer);
    }
  }

  /** unbindAll(): only clears the generic binding point. */
  method UnbindAll(ctx: GlContext)
    modifies ctx
    ensures ctx.trace == old(ctx.trace) + [BindBuffer(0)] && ctx.nextName == old(ctx.nextName)
  {
    ctx.Issue(BindBuffer(0));
  }
}

=== FILE: textures.dfy ===
/** Colour textures: ColorBufferObject2DBase and its 2D, 3D and cube-map variants
    (ColorGrading/buffers.h, ColorGrading/buffers.cpp).

    The C++ class hierarchy becomes one class, ColorBuffer, tagged with its Shape;
    the virtual members (_textureType, _numPixels, _sizeChanged, setSize) dispatch
    on that tag. Every operation is first written as a pure function from the
    texture's state (and the next free object name) to a Step: how the call
    ended, the new state, and the driver calls it issued in order. The class
    methods do what the C++ code does, loop for loop, and are proved to have
    exactly the effect of those functions; the lemmas state the source's promises
    about the functions. */
module Textures {
  import opened Wrappers
  import opened Gl
  import F = Formats

  datatype Shape = Flat | Volume | Cube

  /** The fields of a colour texture object. `depth` is only meaningful for a
      Volume; `handle` is the native texture name once it has been created. */
  datatype Texture = Texture(
    shape: Shape,
    format: F.ColorBufferFormat,
    width: nat, height: nat, depth: nat,
    data: seq<seq<byte>>,
    mipLevels: int,
    tiling: bool,
    handle: Option<nat>)

  /** The effect of one operation. */
  datatype Step = Step(outcome: Outcome, tex: Texture, calls: seq<Call>, next: nat)

  const ResizeWithDataMessage: string :=
    "Can not resize a texture that was initialized with data. The data dictates the required resolution."
  const CubeWithDataMessage: string :=
    "Can not change a texture that was initialized with data. Th data dictates the required resolution."
  const CubeSquareMessage: string := "Cube maps must be perfectly square."
  const MipDataMessage: string :=
    "Can not generate mip maps for a texture with data for multiple mip levels, the data for each mip has been set during initialization."

  /** _textureType */
  function Target(shape: Shape): TexTarget
  {
    match shape
    case Flat => Texture2D
    case Volume => Texture3D
    case Cube => TextureCubeMap
  }

  /** 1 << n */
  function Pow2(n: nat): (p: nat)
    ensures p >= 1
  {
    if n == 0 then 1 else 2 * Pow2(n - 1)
  }

  /** floor(log2(n)) for n >= 1, and 0 for n = 0. */
  function Log2Floor(n: nat): nat
  {
    if n < 2 then 0 else 1 + Log2Floor(n / 2)
  }

  /** The mip count generateMipMaps(0) picks: floor(log2(max(w, h))) + 1. */
  function DefaultMipLevels(width: nat, height: nat): nat
  {
    1 + Log2Floor(if width > height then width else height)
  }

  // ---------------------------------------------------------------------------
  // Construction

  /** The state the constructors leave: ColorBufferObject2DBase takes one mip level
      per supplied data buffer (one when none is supplied), the 2D constructor then
      forces a single level, and a cube is built square from its size. */
  function Constructed(shape: Shape, format: F.ColorBufferFormat, width: nat, height: nat, depth: nat,
                       data: seq<seq<byte>>): (t: Texture)
    ensures t.handle == None && !t.tiling && t.data == data
    ensures t.shape == Flat ==> t.mipLevels == 1
    ensures t.shape != Flat ==> t.mipLevels == (if |data| == 0 then 1 else |data|)
    ensures t.shape == Cube ==> t.width == t.height == width
    ensures t.shape != Cube ==> t.width == width && t.height == height
    ensures t.shape == Volume ==> t.depth == depth
  {
    var base := if |data| == 0 then 1 else |data|;
    match shape
    case Flat => Texture(Flat, format, width, height, 0, data, 1, false, None)
    case Volume => Texture(Volume, format, width, height, depth, data, base, false, None)
    case Cube => Texture(Cube, format, width, width, 0, data, base, false, None)
  }

  // ---------------------------------------------------------------------------
  // Calls issued while the handle is realized

  /** _generateMipMaps: bind, cap the level range, generate. */
  function MipGenCalls(t: Texture, name: nat): seq<Call>
  {
    [BindTexture(Target(t.shape), name),
     TexParameter(Target(t.shape), MaxLevel, Level(t.mipLevels)),
     GenerateMipmap(Target(t.shape))]
  }

  /** _tilingSet: bind, then the R, S and T wraps all to REPEAT or all to CLAMP_TO_EDGE. */
  function TilingCalls(t: Texture, name: nat): seq<Call>
  {
    var target := Target(t.shape);
    var wrap := if t.tiling then Repeat else ClampToEdge;
    [BindTexture(target, name),
     TexParameter(target, WrapR, wrap), TexParameter(target, WrapS, wrap), TexParameter(target, WrapT, wrap)]
  }

  /** The allocation of one mip level by the 2D/3D _sizeChanged: the level's size
      is the base size halved `level` times, and it carries the level's data
      buffer exactly when one was supplied for it. */
  function Upload(t: Texture, level: nat): Call
  {
    var factor := Pow2(level);
    var source := if level < |t.data| then Some(level) else None;
    if t.shape == Volume then
      TexImage3D(Texture3D, level, t.format, t.width / factor, t.height / factor, t.depth / factor, source)
    else
      TexImage2D(Target(t.shape), level, t.format, t.width / factor, t.height / factor, source)
  }

  /** Mip generation right after level 0, only when several data levels exist. */
  function GenCalls(t: Texture, name: nat): seq<Call>
  {
    if |t.data| > 1 then MipGenCalls(t, name) else []
  }

  /** The body of the 2D/3D _sizeChanged loop for levels 0 .. n-1. */
  function LevelCalls(t: Texture, name: nat, n: nat): seq<Call>
  {
    if n == 0 then []
    else LevelCalls(t, name, n - 1) + [Upload(t, n - 1)] + (if n == 1 then GenCalls(t, name) else [])
  }

  function LevelCount(t: Texture): nat
  {
    if t.mipLevels > 0 then t.mipLevels else 0
  }

  /** The mip count the cube _sizeChanged derives from its data: one sixth of the
      buffers, or 1 when that is 0. */
  function CubeLevels(data: seq<seq<byte>>): (m: nat)
    ensures m >= 1
  {
    if |data| / 6 == 0 then 1 else |data| / 6
  }

  /** The data buffer a cube face level is read from: face-major order. */
  function CubeSource(t: Texture, face: nat, level: nat, mips: nat): Option<nat>
  {
    if |t.data| > 0 then Some(face * mips + level) else None
  }

  function CubeUpload(t: Texture, face: nat, level: nat, mips: nat): Call
  {
    var factor := Pow2(level);
    TexImage2D(CubeMapFace(face), level, t.format, t.width / factor, t.height / factor,
               CubeSource(t, face, level, mips))
  }

  /** Level 0 of faces 0 .. n-1. */
  function CubeBaseCalls(t: Texture, mips: nat, n: nat): seq<Call>
  {
    seq(n, i requires 0 <= i => CubeUpload(t, i, 0, mips))
  }

  /** Levels 1 .. k-1 of one face. */
  function CubeFaceMipCalls(t: Texture, face: nat, mips: nat, k: nat): seq<Call>
  {
    seq(if k >= 1 then k - 1 else 0, j requires 0 <= j => CubeUpload(t, face, j + 1, mips))
  }

  /** Levels >= 1 of faces 0 .. n-1, face by face. */
  function CubeHigherCalls(t: Texture, mips: nat, n: nat): seq<Call>
  {
    if n == 0 then [] else CubeHigherCalls(t, mips, n - 1) + CubeFaceMipCalls(t, n - 1, mips, mips)
  }

  /** _sizeChanged: reallocate every level with the current size. The cube variant
      first resets the mip count from its data. */
  function Reallocated(t: Texture): (r: (Texture, seq<Call>))
    requires t.handle.Some?
    ensures r.0 == (if t.shape == Cube then t.(mipLevels := CubeLevels(t.data)) else t)
  {
    var name := t.handle.value;
    if t.shape == Cube then
      var c := t.(mipLevels := CubeLevels(t.data));
      var mips := c.mipLevels;
      (c, [BindTexture(TextureCubeMap, name)] + CubeBaseCalls(c, mips, 6) + MipGenCalls(c, name)
          + CubeHigherCalls(c, mips, 6))
    else
      (t, [BindTexture(Target(t.shape), name)] + LevelCalls(t, name, LevelCount(t)))
  }

  /** _initialize: create the texture, allocate it, set the minification filter
      from the (possibly reset) mip count, apply the wrap mode. */
  function Initialized(t: Texture, name: nat): (r: (Texture, seq<Call>))
    ensures r.0.handle == Some(name)
  {
    var (u, allocation) := Reallocated(t.(handle := Some(name)));
    var filter := if u.mipLevels > 1 then LinearMipmapLinear else Linear;
    (u, [GenTexture(name)] + allocation + [TexParameter(Target(t.shape), MinFilter, filter)] + TilingCalls(u, name))
  }

  // ---------------------------------------------------------------------------
  // Operations

  /** handle(): initialize on first use, then return the cached name. */
  function Acquire(t: Texture, next: nat): (s: Step)
    ensures s.outcome == Continued && s.tex.handle.Some?
    ensures t.handle.Some? ==> s == Step(Continued, t, [], next)
    ensures t.handle.None? ==> s.tex.handle == Some(next) && s.next == next + 1
  {
    if t.handle.Some? then Step(Continued, t, [], next)
    else
      var (u, calls) := Initialized(t, next);
      Step(Continued, u, calls, next + 1)
  }

  /** bind(): glBindTexture(_textureType(), handle()). */
  function Bound(t: Texture, next: nat): (s: Step)
    ensures s.tex.handle.Some?
  {
    var a := Acquire(t, next);
    Step(Continued, a.tex, a.calls + [BindTexture(Target(t.shape), a.tex.handle.value)], a.next)
  }

  /** The two non-fatal checks the cube's setSize runs before the base version. */
  function SizeChecks(t: Texture, width: nat, height: nat): seq<Call>
  {
    if t.shape == Cube then
      (if |t.data| != 0 then [Alert(ErrorMessage, CubeWithDataMessage)] else [])
      + (if width != height then [Alert(ErrorMessage, CubeSquareMessage)] else [])
    else []
  }

  /** setSize(width, height) of ColorBufferObject2DBase and of the cube override. */
  function Resized(t: Texture, width: nat, height: nat): Step
  {
    var checks := SizeChecks(t, width, height);
    if |t.data| != 0 then Step(Exited, t, checks + [Alert(FatalMessage, ResizeWithDataMessage)], 0)
    else if width == t.width && height == t.height then Step(Continued, t, checks, 0)
    else
      var u := t.(width := width, height := height);
      if u.handle.None? then Step(Continued, u, checks, 0)
      else
        var (v, calls) := Reallocated(u);
        Step(Continued, v, checks + calls, 0)
  }

  /** setSize(width, height, depth) of ColorBufferObject3D. */
  function Resized3D(t: Texture, width: nat, height: nat, depth: nat): Step
  {
    if |t.data| != 0 then Step(Exited, t, [Alert(FatalMessage, ResizeWithDataMessage)], 0)
    else if width == t.width && height == t.height && depth == t.depth then Step(Continued, t, [], 0)
    else
      var u := t.(width := width, height := height, depth := depth);
      if u.handle.None? then Step(Continued, u, [], 0)
      else
        var (v, calls) := Reallocated(u);
        Step(Continued, v, calls, 0)
  }

  /** setTiling: always store the flag, touch the driver only when realized. */
  function Retiled(t: Texture, tiling: bool): Step
  {
    var u := t.(tiling := tiling);
    Step(Continued, u, if u.handle.Some? then TilingCalls(u, u.handle.value) else [], 0)
  }

  /** generateMipMaps(levels). */
  function WithMipLevels(t: Texture, levels: int): Step
  {
    var check := if |t.data| < 2 then [] else [Alert(ErrorMessage, MipDataMessage)];
    var u := t.(mipLevels := if levels != 0 then levels else DefaultMipLevels(t.width, t.height));
    Step(Continued, u, check + (if u.handle.Some? then MipGenCalls(u, u.handle.value) else []), 0)
  }

  /** _numPixels(factor), per shape. */
  function NumPixels(t: Texture, factor: nat): nat
    requires factor > 0
  {
    var f2 := Product(factor, factor);
    var f3 := Product(f2, factor);
    match t.shape
    case Flat => Quotient(Product(t.width, t.height), f2)
    case Volume => Quotient(Product(Product(t.width, t.height), t.depth), f3)
    case Cube => Quotient(Product(Product(t.width, t.width), t.width), f3)
  }

  /** Integer division of sizes, which truncates (the operands are never negative). */
  function Quotient(a: nat, b: nat): nat
    requires b > 0
  {
    a / b
  }

  /** Multiplication of sizes, kept apart so the solver sees one product at a time. */
  function Product(a: nat, b: nat): (p: nat)
    ensures a > 0 && b > 0 ==> p > 0
  {
    a * b
  }

  /** The element count _read allocates for a mip level. */
  function ReadCount(t: Texture, mip: nat): nat
  {
    F.Channels(t.format) * NumPixels(t, Pow2(mip))
  }

  // ---------------------------------------------------------------------------
  // Properties

  lemma {:induction false} Log2FloorBounds(n: nat)
    requires n >= 1
    ensures Pow2(Log2Floor(n)) <= n < Pow2(Log2Floor(n) + 1)
  {
    if n >= 2 {
      Log2FloorBounds(n / 2);
    }
  }

  /** generateMipMaps(0) on a w x h texture picks the unique count m with
      2^(m-1) <= max(w, h) < 2^m. */
  lemma DefaultMipLevelsSpec(width: nat, height: nat)
    requires width >= 1 || height >= 1
    ensures var m := DefaultMipLevels(width, height); var big := if width > height then width else height;
      Pow2(m - 1) <= big < Pow2(m)
  {
    Log2FloorBounds(if width > height then width else height);
  }

  /** Two sample mip counts: 100 x 40 gives 7 and 1 x 1 gives 1. */
  lemma DefaultMipLevelsExamples()
    ensures DefaultMipLevels(100, 40) == 7 && DefaultMipLevels(1, 1) == 1
  {
    assert Log2Floor(100) == 1 + Log2Floor(50) == 2 + Log2Floor(25) == 3 + Log2Floor(12);
    assert Log2Floor(12) == 1 + Log2Floor(6) == 2 + Log2Floor(3) == 3;
  }

  /** The 2D/3D allocation order: level 0, then (only with several data levels)
      the mip generation, then levels 1 .. n-1 in increasing order. */
  lemma {:induction false} LevelCallsShape(t: Texture, name: nat, n: nat)
    requires n >= 1
    ensures |LevelCalls(t, name, n)| == n + |GenCalls(t, name)|
    ensures LevelCalls(t, name, n)[..1 + |GenCalls(t, name)|] == [Upload(t, 0)] + GenCalls(t, name)
    ensures forall level :: 1 <= level < n ==> LevelCalls(t, name, n)[level + |GenCalls(t, name)|] == Upload(t, level)
  {
    if n > 1 {
      LevelCallsShape(t, name, n - 1);
      var prev := LevelCalls(t, name, n - 1);
      assert LevelCalls(t, name, n) == prev + [Upload(t, n - 1)];
    }
  }

  /** Without several data levels the 2D/3D allocation never generates mips. */
  lemma {:induction false} NoGenerationWithoutDataLevels(t: Texture, name: nat, n: nat)
    requires |t.data| <= 1 && t.shape != Cube
    ensures forall c :: c in LevelCalls(t, name, n) ==> !c.GenerateMipmap?
  {
    if n > 0 {
      NoGenerationWithoutDataLevels(t, name, n - 1);
    }
  }

  /** A level's upload matches what the source computes for it: the halved size,
      and the level's data buffer exactly when one was supplied for it. */
  lemma UploadSizes(t: Texture, level: nat)
    requires t.shape != Cube
    ensures Upload(t, level).level == level
    ensures Upload(t, level).width == t.width / Pow2(level) && Upload(t, level).height == t.height / Pow2(level)
    ensures t.shape == Volume ==> Upload(t, level).TexImage3D? && Upload(t, level).depth == t.depth / Pow2(level)
    ensures Upload(t, level).source.Some? <==> level < |t.data|
    ensures Upload(t, level).source.Some? ==> Upload(t, level).source.value == level
  {
  }

  /** One more face extends the level-0 allocations by that face. */
  lemma CubeBaseStep(t: Texture, mips: nat, n: nat)
    ensures CubeBaseCalls(t, mips, n + 1) == CubeBaseCalls(t, mips, n) + [CubeUpload(t, n, 0, mips)]
  {
  }

  /** One more level of a face extends its allocations by that level. */
  lemma CubeFaceMipStep(t: Texture, face: nat, mips: nat, k: nat)
    requires k >= 1
    ensures CubeFaceMipCalls(t, face, mips, k + 1) == CubeFaceMipCalls(t, face, mips, k) + [CubeUpload(t, face, k, mips)]
  {
  }

  lemma MulLe(a: int, b: int, c: nat)
    requires a <= b
    ensures a * c <= b * c
  {
  }

  lemma {:induction false} CubeHigherLength(t: Texture, mips: nat, n: nat)
    requires mips >= 1
    ensures |CubeHigherCalls(t, mips, n)| == n * (mips - 1)
  {
    if n > 0 {
      CubeHigherLength(t, mips, n - 1);
      assert (n - 1) * (mips - 1) + (mips - 1) == n * (mips - 1);
    }
  }

  /** Face `face`, level `level` >= 1 follows the higher levels of all earlier
      faces. */
  lemma {:induction false} CubeHigherAt(t: Texture, mips: nat, n: nat, face: nat, level: nat)
    requires face < n && 1 <= level < mips
    ensures |CubeHigherCalls(t, mips, face)| + level - 1 < |CubeHigherCalls(t, mips, n)|
    ensures CubeHigherCalls(t, mips, n)[|CubeHigherCalls(t, mips, face)| + level - 1] == CubeUpload(t, face, level, mips)
  {
    var prev := CubeHigherCalls(t, mips, n - 1);
    var cur := CubeFaceMipCalls(t, n - 1, mips, mips);
    var i := |CubeHigherCalls(t, mips, face)| + level - 1;
    if face < n - 1 {
      CubeHigherAt(t, mips, n - 1, face, level);
      assert (prev + cur)[i] == prev[i];
    } else {
      assert (prev + cur)[i] == cur[level - 1];
    }
  }

  /** The cube allocation order: bind, level 0 of all six faces (face 0 to 5),
      then the single mip generation, then levels 1 .. mips-1 face by face; face f,
      level m reads data buffer f * mips + m. */
  lemma CubeAllocationOrder(t: Texture)
    requires t.shape == Cube && t.handle.Some?
    ensures var (c, calls) := Reallocated(t); var mips := CubeLevels(t.data); var name := t.handle.value;
      && c.mipLevels == mips
      && |calls| == 10 + 6 * (mips - 1)
      && calls[0] == BindTexture(TextureCubeMap, name)
      && (forall face :: 0 <= face < 6 ==> calls[1 + face] == CubeUpload(c, face, 0, mips))
      && calls[7..10] == MipGenCalls(c, name)
      && (forall face, level :: 0 <= face < 6 && 1 <= level < mips ==>
            calls[10 + face * (mips - 1) + level - 1] == CubeUpload(c, face, level, mips))
  {
    var (c, calls) := Reallocated(t);
    var mips := CubeLevels(t.data);
    var name := t.handle.value;
    CubeHigherLength(c, mips, 6);
    var head := [BindTexture(TextureCubeMap, name)] + CubeBaseCalls(c, mips, 6) + MipGenCalls(c, name);
    assert |head| == 10;
    assert calls == head + CubeHigherCalls(c, mips, 6);
    forall face: nat, level: nat | face < 6 && 1 <= level < mips
      ensures calls[10 + face * (mips - 1) + level - 1] == CubeUpload(c, face, level, mips)
    {
      CubeHigherAt(c, mips, 6, face, level);
      CubeHigherLength(c, mips, face);
    }
  }

  /** Six faces times three levels: 18 buffers give 3 mip levels and face f,
      level m reads buffer 3f + m. */
  lemma CubeEighteenBuffers(t: Texture, face: nat, level: nat)
    requires |t.data| == 18
    ensures CubeLevels(t.data) == 3
    ensures CubeSource(t, face, level, CubeLevels(t.data)) == Some(3 * face + level)
  {
  }

  /** Every buffer index the cube allocation reads is in range exactly when the
      data is empty or holds at least six buffers; with one to five buffers the
      last face reads past the end. */
  lemma CubeSourcesInRange(t: Texture)
    ensures |t.data| == 0 || |t.data| >= 6 ==>
      forall face: nat, level: nat :: face < 6 && level < CubeLevels(t.data) ==>
        var s := CubeSource(t, face, level, CubeLevels(t.data)); s.Some? ==> s.value < |t.data|
    ensures 0 < |t.data| < 6 ==> CubeSource(t, 5, 0, CubeLevels(t.data)).value >= |t.data|
  {
    var mips := CubeLevels(t.data);
    if |t.data| >= 6 {
      forall face: nat, level: nat | face < 6 && level < mips
        ensures var s := CubeSource(t, face, level, mips); s.Some? ==> s.value < |t.data|
      {
        MulLe(face + 1, 6, mips);
        assert 6 * (|t.data| / 6) <= |t.data|;
      }
    }
  }

  /** handle() initializes at most once: a second call returns the same name and
      issues nothing. */
  lemma AcquireIsCached(t: Texture, next: nat)
    ensures var a := Acquire(t, next); Acquire(a.tex, a.next) == Step(Continued, a.tex, [], a.next)
    ensures t.handle.None? ==> |Acquire(t, next).calls| > 0 && Acquire(t, next).calls[0] == GenTexture(next)
  {
  }

  /** setSize to the current size changes nothing and issues no driver call (a
      cube additionally reports nothing when it is square). */
  lemma SetSizeUnchanged(t: Texture)
    requires |t.data| == 0 && (t.shape == Cube ==> t.width == t.height)
    ensures Resized(t, t.width, t.height) == Step(Continued, t, [], 0)
    ensures t.shape == Volume ==> Resized3D(t, t.width, t.height, t.depth) == Step(Continued, t, [], 0)
  {
  }

  /** A texture constructed with data cannot be resized: setSize ends the process
      with the fatal message and leaves the object as it was. */
  lemma SetSizeWithDataIsFatal(t: Texture, width: nat, height: nat, depth: nat)
    requires |t.data| != 0
    ensures var s := Resized(t, width, height);
      s.outcome == Exited && s.tex == t && s.calls[|s.calls| - 1] == Alert(FatalMessage, ResizeWithDataMessage)
    ensures Resized3D(t, width, height, depth) == Step(Exited, t, [Alert(FatalMessage, ResizeWithDataMessage)], 0)
  {
  }

  /** A new size is stored, and the storage is reallocated only when the handle is
      realized: before that, setSize issues no driver call at all (a cube may
      still report); after it, the cube's checks are followed by the whole
      reallocation at the new size. */
  lemma SetSizeReallocatesOnlyWhenRealized(t: Texture, width: nat, height: nat)
    requires |t.data| == 0 && (width != t.width || height != t.height)
    ensures var s := Resized(t, width, height); var u := t.(width := width, height := height);
      && s.outcome == Continued && s.tex.width == width && s.tex.height == height
      && (t.handle.None? ==> s.tex == u && forall c :: c in s.calls ==> c.Alert?)
      && (t.handle.Some? ==> s.tex == Reallocated(u).0 && s.calls == SizeChecks(t, width, height) + Reallocated(u).1)
  {
  }

  /** The 2D/3D reallocation binds, then uploads level 0. */
  lemma ReallocationStartsAtLevelZero(u: Texture)
    requires u.handle.Some? && u.shape != Cube && u.mipLevels >= 1
    ensures |Reallocated(u).1| >= 2 && Reallocated(u).1[1] == Upload(u, 0)
  {
    var name := u.handle.value;
    LevelCallsShape(u, name, LevelCount(u));
    var levels := LevelCalls(u, name, LevelCount(u));
    assert levels[0] == levels[..1 + |GenCalls(u, name)|][0];
  }

  /** On a realized 2D texture the reallocation setSize issues starts, after the
      bind, with level 0 at the new width and height. */
  lemma SetSizeUploadsNewSize(t: Texture, width: nat, height: nat)
    requires |t.data| == 0 && (width != t.width || height != t.height)
    requires t.handle.Some? && t.shape == Flat && t.mipLevels >= 1
    ensures var s := Resized(t, width, height); var u := t.(width := width, height := height);
      s.calls[1] == Upload(u, 0) && s.calls[1].width == width && s.calls[1].height == height
  {
    var u := t.(width := width, height := height);
    var r := Reallocated(u);
    assert Resized(t, width, height).calls == r.1;
    ReallocationStartsAtLevelZero(u);
    UploadSizes(u, 0);
  }

  /** The same rule for the 3D setSize, which has no checks of its own: all three
      sizes are stored; unrealized, nothing is issued; realized, the texture is
      reallocated at the new size. */
  lemma SetSize3DReallocatesOnlyWhenRealized(t: Texture, width: nat, height: nat, depth: nat)
    requires |t.data| == 0 && (width != t.width || height != t.height || depth != t.depth)
    ensures var s := Resized3D(t, width, height, depth); var u := t.(width := width, height := height, depth := depth);
      && s.outcome == Continued
      && (t.handle.None? ==> s.tex == u && s.calls == [])
      && (t.handle.Some? ==> s.tex == Reallocated(u).0 && s.calls == Reallocated(u).1)
  {
  }

  /** On a realized 3D texture that reallocation starts, after the bind, with
      level 0 at the new width, height and depth. */
  lemma SetSize3DUploadsNewSize(t: Texture, width: nat, height: nat, depth: nat)
    requires |t.data| == 0 && (width != t.width || height != t.height || depth != t.depth)
    requires t.handle.Some? && t.shape == Volume && t.mipLevels >= 1
    ensures var s := Resized3D(t, width, height, depth); var u := t.(width := width, height := height, depth := depth);
      s.calls[1] == Upload(u, 0) && s.calls[1].width == width && s.calls[1].height == height && s.calls[1].depth == depth
  {
    var u := t.(width := width, height := height, depth := depth);
    var r := Reallocated(u);
    assert Resized3D(t, width, height, depth).calls == r.1;
    ReallocationStartsAtLevelZero(u);
    UploadSizes(u, 0);
  }

  /** setTiling stores the flag and, only when realized, sets all three wraps to
      the same mode: REPEAT when tiling, CLAMP_TO_EDGE otherwise. */
  lemma SetTilingWraps(t: Texture, tiling: bool)
    ensures var s := Retiled(t, tiling);
      && s.tex == t.(tiling := tiling)
      && (t.handle.None? ==> s.calls == [])
      && (t.handle.Some? ==> forall c :: c in s.calls[1..] ==>
            c.TexParameter? && c.value == (if tiling then Repeat else ClampToEdge))
      && (t.handle.Some? ==> {WrapR, WrapS, WrapT} == set c | c in s.calls[1..] :: c.param)
  {
    var s := Retiled(t, tiling);
    if t.handle.Some? {
      var target := Target(t.shape);
      var wrap := if tiling then Repeat else ClampToEdge;
      assert s.calls[1..] == [TexParameter(target, WrapR, wrap), TexParameter(target, WrapS, wrap), TexParameter(target, WrapT, wrap)];
    }
  }

  /** generateMipMaps stores an explicit count verbatim and otherwise the default
      count; it reports (without stopping) when several data levels exist, and it
      regenerates only when the handle is realized. */
  lemma GenerateMipMapsEffect(t: Texture, levels: int)
    ensures var s := WithMipLevels(t, levels);
      && s.tex == t.(mipLevels := if levels != 0 then levels else DefaultMipLevels(t.width, t.height))
      && (|t.data| >= 2 <==> (|s.calls| > 0 && s.calls[0] == Alert(ErrorMessage, MipDataMessage)))
      && (t.handle.None? ==> forall c :: c in s.calls ==> c.Alert?)
      && (t.handle.Some? ==> s.calls[|s.calls| - 1] == GenerateMipmap(Target(t.shape)))
  {
  }

  /** A mip count requested before the texture is realized is allocated but never
      generated: with at most one data level, the first handle() of a 2D or 3D
      texture issues no glGenerateMipmap at all. */
  lemma {:induction false} RequestedMipsAreNotGeneratedOnInitialize(t: Texture, levels: int, next: nat)
    requires t.handle.None? && |t.data| <= 1 && t.shape != Cube
    ensures var u := WithMipLevels(t, levels).tex; forall c :: c in Acquire(u, next).calls ==> !c.GenerateMipmap?
  {
    var u := WithMipLevels(t, levels).tex;
    var v := u.(handle := Some(next));
    NoGenerationWithoutDataLevels(v, next, LevelCount(v));
  }

  /** The read-back buffer of a 2D texture is at least as large as the level
      _sizeChanged allocates: that level's pixel count (sizes shifted right by the
      level) times the channel count never exceeds the element count _read
      allocates. Row padding and levels resized by glGenerateMipmap are outside
      this bound. */
  lemma ReadCountCoversFlatLevel(t: Texture, mip: nat)
    requires t.shape == Flat
    ensures var f := Pow2(mip);
      F.Channels(t.format) * ((t.width / f) * (t.height / f)) <= ReadCount(t, mip)
  {
    var f := Pow2(mip);
    FloorMul(t.width, f, t.height, f);
    MulLeLeft(F.Channels(t.format), Quotient(t.width, f) * Quotient(t.height, f), NumPixels(t, f));
  }

  /** The same for a 3D texture, whose allocated level halves all three sizes. */
  lemma ReadCountCoversVolumeLevel(t: Texture, mip: nat)
    requires t.shape == Volume
    ensures var f := Pow2(mip);
      F.Channels(t.format) * ((t.width / f) * (t.height / f) * (t.depth / f)) <= ReadCount(t, mip)
  {
    var f := Pow2(mip);
    VolumeFits(t.width, t.height, t.depth, f);
    MulLeLeft(F.Channels(t.format), Quotient(t.width, f) * Quotient(t.height, f) * Quotient(t.depth, f), NumPixels(t, f));
  }

  /** The cube _numPixels uses width cubed, so a face level of a square cube, as
      _sizeChanged allocates it, fits as well (with room to spare). */
  lemma ReadCountCoversCubeFaceLevel(t: Texture, mip: nat)
    requires t.shape == Cube && t.width == t.height
    ensures var f := Pow2(mip);
      F.Channels(t.format) * ((t.width / f) * (t.height / f)) <= ReadCount(t, mip)
  {
    var f := Pow2(mip);
    CubeFaceFits(t.width, f);
    MulLeLeft(F.Channels(t.format), Quotient(t.width, f) * Quotient(t.width, f), NumPixels(t, f));
  }

  /** Halving three sizes before multiplying never gives more than dividing the volume. */
  lemma VolumeFits(w: nat, h: nat, d: nat, f: nat)
    requires f > 0
    ensures Quotient(w, f) * Quotient(h, f) * Quotient(d, f) <= Quotient(Product(Product(w, h), d), Product(Product(f, f), f))
  {
    var wh, ff := Product(w, h), Product(f, f);
    FloorMul(w, f, h, f);
    FloorMul(wh, ff, d, f);
    ScaledBelow(Quotient(w, f) * Quotient(h, f), Quotient(wh, ff), Quotient(d, f), Quotient(Product(wh, d), Product(ff, f)));
  }

  lemma ScaledBelow(p: nat, q: nat, z: nat, r: nat)
    requires p <= q && q * z <= r
    ensures p * z <= r
  {
    MulLe(p, q, z);
  }

  /** A face level of a cube of width w fits the w-cubed count. */
  lemma CubeFaceFits(w: nat, f: nat)
    requires f > 0
    ensures Quotient(w, f) * Quotient(w, f) <= Quotient(Product(Product(w, w), w), Product(Product(f, f), f))
  {
    var ww, ff := Product(w, w), Product(f, f);
    FloorMul(w, f, w, f);
    FloorMul(ww, ff, w, f);
    SquareBelow(Quotient(w, f), Quotient(ww, ff), Quotient(Product(ww, w), Product(ff, f)));
  }

  lemma SquareBelow(x: nat, q: nat, r: nat)
    requires x * x <= q && q * x <= r
    ensures x * x <= r
  {
    if x > 0 {
      MulLeLeft(q, 1, x);
    }
  }

  lemma ProductLe(a: nat, b: nat, c: nat, d: nat)
    requires a <= b && c <= d
    ensures a * c <= b * d
  {
    MulLe(a, b, c);
    MulLe(c, d, b);
  }

  lemma DivLe(q: nat, d: nat, n: nat)
    requires d > 0 && q * d <= n
    ensures q <= n / d
  {
    var k := n / d;
    assert k * d + n % d == n;
    if q > k {
      MulLe(k + 1, q, d);
    }
  }

  lemma MulLeLeft(c: nat, a: int, b: int)
    requires a <= b
    ensures c * a <= c * b
  {
    MulLe(a, b, c);
  }

  lemma Regroup(x: nat, f: nat, y: nat, g: nat)
    ensures (x * f) * (y * g) == (x * y) * (f * g)
  {
  }

  /** Flooring each factor first never gives more: (a / f) * (b / g) <= (a * b) / (f * g). */
  lemma FloorMul(a: nat, f: nat, b: nat, g: nat)
    requires f > 0 && g > 0
    ensures Quotient(a, f) * Quotient(b, g) <= Quotient(Product(a, b), Product(f, g))
  {
    var x, y := a / f, b / g;
    DivMulLe(a, f);
    DivMulLe(b, g);
    ProductLe(x * f, a, y * g, b);
    Regroup(x, f, y, g);
    var p, q, n := x * y, f * g, a * b;
    assert p * q <= n;
    DivLe(p, q, n);
  }

  lemma DivMulLe(a: nat, f: nat)
    requires f > 0
    ensures (a / f) * f <= a
  {
  }


  // ---------------------------------------------------------------------------
  // The object

  class ColorBuffer {
    const ctx: GlContext
    const shape: Shape
    const format: F.ColorBufferFormat
    const data: seq<seq<byte>>
    var width: nat
    var height: nat
    var depth: nat
    var mipLevels: int
    var tiling: bool
    var handle: Option<nat>

    function Model(): Texture
      reads this
    {
      Texture(shape, format, width, height, depth, data, mipLevels, tiling, handle)
    }

    /** ColorBufferObject2D(format, width, height, dataPerMipLevel) */
    constructor Flat(ctx: GlContext, format: F.ColorBufferFormat, width: nat, height: nat, dataPerMipLevel: seq<seq<byte>>)
      ensures this.ctx == ctx && Model() == Constructed(Shape.Flat, format, width, height, 0, dataPerMipLevel)
    {
      this.ctx := ctx;
      this.shape := Shape.Flat;
      this.format := format;
      this.data := dataPerMipLevel;
      this.width, this.height, this.depth := width, height, 0;
      this.tiling := false;
      this.handle := None;
      this.mipLevels := if |dataPerMipLevel| == 0 then 1 else |dataPerMipLevel|;
      new;
      mipLevels := 1;
    }

    /** ColorBufferObject3D(format, width, height, depth, dataPerMipLevel) */
    constructor Volume(ctx: GlContext, format: F.ColorBufferFormat, width: nat, height: nat, depth: nat,
                       dataPerMipLevel: seq<seq<byte>>)
      ensures this.ctx == ctx && Model() == Constructed(Shape.Volume, format, width, height, depth, dataPerMipLevel)
    {
      this.ctx := ctx;
      this.shape := Shape.Volume;
      this.format := format;
      this.data := dataPerMipLevel;
      this.width, this.height, this.depth := width, height, depth;
      this.tiling := false;
      this.handle := None;
      this.mipLevels := if |dataPerMipLevel| == 0 then 1 else |dataPerMipLevel|;
    }

    /** ColorBufferObjectCube(format, size, dataPerMipLevelPerFace) */
    constructor Cube(ctx: GlContext, format: F.ColorBufferFormat, size: nat, dataPerMipLevelPerFace: seq<seq<byte>>)
      ensures this.ctx == ctx && Model() == Constructed(Shape.Cube, format, size, size, 0, dataPerMipLevelPerFace)
    {
      this.ctx := ctx;
      this.shape := Shape.Cube;
      this.format := format;
      this.data := dataPerMipLevelPerFace;
      this.width, this.height, this.depth := size, size, 0;
      this.tiling := false;
      this.handle := None;
      this.mipLevels := if |dataPerMipLevelPerFace| == 0 then 1 else |dataPerMipLevelPerFace|;
    }

    /** fromQImage: one data level holding width * height * 4 bytes of the image,
        RGBA8 or SRGB8_ALPHA8, and the requested wrap mode. */
    static method FromImage(ctx: GlContext, width: nat, height: nat, bits: seq<byte>, tile: bool, srgb: bool)
      returns (b: ColorBuffer)
      requires |bits| >= width * height * 4
      modifies ctx
      ensures fresh(b) && b.ctx == ctx
      ensures b.Model() == Constructed(Shape.Flat, if srgb then F.SRGB8_ALPHA8 else F.RGBA8, width, height, 0,
                                       [bits[..width * height * 4]]).(tiling := tile)
      ensures |b.data| == 1 && |b.data[0]| == width * height * 4
      ensures ctx.trace == old(ctx.trace) && ctx.nextName == old(ctx.nextName)
    {
      var numBytes := width * height * 4;
      var level := bits[..numBytes];
      b := new ColorBuffer.Flat(ctx, if srgb then F.SRGB8_ALPHA8 else F.RGBA8, width, height, [level]);
      b.SetTiling(tile);
    }

    function HasMips(): (r: bool)
      reads this
      ensures r <==> mipLevels > 1
    {
      mipLevels > 1
    }

    /** handle() */
    method Handle() returns (name: nat)
      modifies this, ctx
      ensures var s := Acquire(old(Model()), old(ctx.nextName));
        Model() == s.tex && ctx.trace == old(ctx.trace) + s.calls && ctx.nextName == s.next && Some(name) == s.tex.handle
    {
      if handle.None? {
        Initialize();
      }
      name := handle.value;
    }

    /** _initialize */
    method Initialize()
      requires handle.None?
      modifies this, ctx
      ensures var r := Initialized(old(Model()), old(ctx.nextName));
        Model() == r.0 && ctx.trace == old(ctx.trace) + r.1 && ctx.nextName == old(ctx.nextName) + 1
    {
      var name := ctx.NewName();
      handle := Some(name);
      ctx.Issue(GenTexture(name));
      SizeChanged();
      ghost var allocation := Reallocated(old(Model()).(handle := Some(name))).1;
      if !HasMips() {
        ctx.Issue(TexParameter(Target(shape), MinFilter, Linear));
      } else {
        ctx.Issue(TexParameter(Target(shape), MinFilter, LinearMipmapLinear));
      }
      ghost var filter := ctx.trace[|ctx.trace| - 1];
      TilingSet();
      AppendAssoc(old(ctx.trace), [GenTexture(name)], allocation);
      AppendAssoc(old(ctx.trace), [GenTexture(name)] + allocation, [filter]);
      AppendAssoc(old(ctx.trace), [GenTexture(name)] + allocation + [filter], TilingCalls(Model(), name));
    }

    /** bind() */
    method Bind()
      modifies this, ctx
      ensures var s := Bound(old(Model()), old(ctx.nextName));
        Model() == s.tex && ctx.trace == old(ctx.trace) + s.calls && ctx.nextName == s.next
    {
      var name := Handle();
      ctx.Issue(BindTexture(Target(shape), name));
    }

    /** _tilingSet */
    method TilingSet()
      requires handle.Some?
      modifies ctx
      ensures ctx.trace == old(ctx.trace) + TilingCalls(Model(), handle.value) && ctx.nextName == old(ctx.nextName)
    {
      var target := Target(shape);
      ctx.Issue(BindTexture(target, handle.value));
      if !tiling {
        ctx.Issue(TexParameter(target, WrapR, ClampToEdge));
        ctx.Issue(TexParameter(target, WrapS, ClampToEdge));
        ctx.Issue(TexParameter(target, WrapT, ClampToEdge));
      } else {
        ctx.Issue(TexParameter(target, WrapR, Repeat));
        ctx.Issue(TexParameter(target, WrapS, Repeat));
        ctx.Issue(TexParameter(target, WrapT, Repeat));
      }
    }

    /** _generateMipMaps */
    method GenerateMipMapsNow()
      requires handle.Some?
      modifies ctx
      ensures ctx.trace == old(ctx.trace) + MipGenCalls(Model(), handle.value) && ctx.nextName == old(ctx.nextName)
    {
      ctx.Issue(BindTexture(Target(shape), handle.value));
      ctx.Issue(TexParameter(Target(shape), MaxLevel, Level(mipLevels)));
      ctx.Issue(GenerateMipmap(Target(shape)));
    }

    /** _sizeChanged, dispatched on the shape. */
    method SizeChanged()
      requires handle.Some?
      modifies this, ctx
      ensures var r := Reallocated(old(Model()));
        Model() == r.0 && ctx.trace == old(ctx.trace) + r.1 && ctx.nextName == old(ctx.nextName)
    {
      if shape == Shape.Cube {
        SizeChangedCube();
      } else {
        SizeChangedLevels();
      }
    }

    /** The 2D and 3D _sizeChanged: one allocation per mip level, in increasing
        order, with the mip generation right after level 0. */
    method SizeChangedLevels()
      requires handle.Some? && shape != Shape.Cube
      modifies ctx
      ensures ctx.trace == old(ctx.trace) + Reallocated(Model()).1 && ctx.nextName == old(ctx.nextName)
    {
      var name := handle.value;
      var target := Target(shape);
      ctx.Issue(BindTexture(target, name));
      var mipLevel := 0;
      while mipLevel < mipLevels
        invariant 0 <= mipLevel <= LevelCount(Model())
        invariant ctx.trace == old(ctx.trace) + [BindTexture(target, name)] + LevelCalls(Model(), name, mipLevel)
        invariant ctx.nextName == old(ctx.nextName)
      {
        AllocateLevel(mipLevel);
        ghost var prefix := old(ctx.trace) + [BindTexture(target, name)];
        ghost var done := LevelCalls(Model(), name, mipLevel);
        AppendAssoc(prefix, done, [Upload(Model(), mipLevel)]);
        AppendAssoc(prefix, done + [Upload(Model(), mipLevel)], if mipLevel == 0 then GenCalls(Model(), name) else []);
        mipLevel := mipLevel + 1;
      }
    }

    /** One pass of the 2D/3D _sizeChanged loop: allocate the level, and after
        level 0 generate the mips when several data levels exist. */
    method AllocateLevel(mipLevel: nat)
      requires handle.Some? && shape != Shape.Cube
      modifies ctx
      ensures ctx.trace == old(ctx.trace) + [Upload(Model(), mipLevel)]
        + (if mipLevel == 0 then GenCalls(Model(), handle.value) else [])
      ensures ctx.nextName == old(ctx.nextName)
    {
      var target := Target(shape);
      var factor := Pow2(mipLevel);
      if shape == Shape.Volume {
        if mipLevel >= |data| {
          ctx.Issue(TexImage3D(target, mipLevel, format, width / factor, height / factor, depth / factor, None));
        } else {
          ctx.Issue(TexImage3D(target, mipLevel, format, width / factor, height / factor, depth / factor, Some(mipLevel)));
        }
      } else {
        if mipLevel >= |data| {
          ctx.Issue(TexImage2D(target, mipLevel, format, width / factor, height / factor, None));
        } else {
          ctx.Issue(TexImage2D(target, mipLevel, format, width / factor, height / factor, Some(mipLevel)));
        }
      }
      if mipLevel == 0 && |data| > 1 {
        GenerateMipMapsNow();
      }
    }

    /** The cube _sizeChanged: reset the mip count from the data, level 0 of the
        six faces, one mip generation, then the higher levels face by face. */
    method SizeChangedCube()
      requires handle.Some? && shape == Shape.Cube
      modifies this, ctx
      ensures var r := Reallocated(old(Model()));
        Model() == r.0 && ctx.trace == old(ctx.trace) + r.1 && ctx.nextName == old(ctx.nextName)
    {
      var name := handle.value;
      ctx.Issue(BindTexture(TextureCubeMap, name));
      mipLevels := |data| / 6;
      if mipLevels == 0 {
        mipLevels := 1;
      }
      ghost var c := Model();
      assert c == Reallocated(old(Model())).0;
      var mips: nat := mipLevels;
      ghost var t1 := ctx.trace;
      CubeBaseLevels(mips);
      ghost var t2 := ctx.trace;
      GenerateMipMapsNow();
      ghost var t3 := ctx.trace;
      CubeHigherLevels(mips);
      AppendAssoc(t1, CubeBaseCalls(c, mips, 6), MipGenCalls(c, name));
      AppendAssoc(t2, MipGenCalls(c, name), CubeHigherCalls(c, mips, 6));
      AppendAssoc(t1, CubeBaseCalls(c, mips, 6) + MipGenCalls(c, name), CubeHigherCalls(c, mips, 6));
      AppendAssoc(old(ctx.trace), [BindTexture(TextureCubeMap, name)], CubeBaseCalls(c, mips, 6) + MipGenCalls(c, name) + CubeHigherCalls(c, mips, 6));
    }

    /** The first loop of the cube _sizeChanged: level 0 of every face. */
    method CubeBaseLevels(mips: nat)
      modifies ctx
      ensures ctx.trace == old(ctx.trace) + CubeBaseCalls(Model(), mips, 6) && ctx.nextName == old(ctx.nextName)
    {
      var faceId := 0;
      while faceId < 6
        invariant 0 <= faceId <= 6
        invariant ctx.trace == old(ctx.trace) + CubeBaseCalls(Model(), mips, faceId)
        invariant ctx.nextName == old(ctx.nextName)
      {
        var source: Option<nat> := None;
        if |data| > 0 {
          source := Some(faceId * mips);
        }
        ctx.Issue(TexImage2D(CubeMapFace(faceId), 0, format, width, height, source));
        CubeBaseStep(Model(), mips, faceId);
        AppendAssoc(old(ctx.trace), CubeBaseCalls(Model(), mips, faceId), [CubeUpload(Model(), faceId, 0, mips)]);
        faceId := faceId + 1;
      }
    }

    /** The second loop of the cube _sizeChanged: levels 1 .. mips-1, face by face. */
    method CubeHigherLevels(mips: nat)
      modifies ctx
      ensures ctx.trace == old(ctx.trace) + CubeHigherCalls(Model(), mips, 6) && ctx.nextName == old(ctx.nextName)
    {
      var faceId := 0;
      while faceId < 6
        invariant 0 <= faceId <= 6
        invariant ctx.trace == old(ctx.trace) + CubeHigherCalls(Model(), mips, faceId)
        invariant ctx.nextName == old(ctx.nextName)
      {
        CubeFaceLevels(faceId, mips);
        AppendAssoc(old(ctx.trace), CubeHigherCalls(Model(), mips, faceId), CubeFaceMipCalls(Model(), faceId, mips, mips));
        faceId := faceId + 1;
      }
    }

    /** The inner loop: levels 1 .. mips-1 of one face. */
    method CubeFaceLevels(faceId: nat, mips: nat)
      modifies ctx
      ensures ctx.trace == old(ctx.trace) + CubeFaceMipCalls(Model(), faceId, mips, mips) && ctx.nextName == old(ctx.nextName)
    {
      var mipLevel := 1;
      while mipLevel < mips
        invariant mipLevel == 1 || 1 < mipLevel <= mips
        invariant ctx.trace == old(ctx.trace) + CubeFaceMipCalls(Model(), faceId, mips, mipLevel)
        invariant ctx.nextName == old(ctx.nextName)
      {
        var factor := Pow2(mipLevel);
        var source: Option<nat> := None;
        if |data| > 0 {
          source := Some(faceId * mips + mipLevel);
        }
        ctx.Issue(TexImage2D(CubeMapFace(faceId), mipLevel, format, width / factor, height / factor, source));
        CubeFaceMipStep(Model(), faceId, mips, mipLevel);
        AppendAssoc(old(ctx.trace), CubeFaceMipCalls(Model(), faceId, mips, mipLevel), [CubeUpload(Model(), faceId, mipLevel, mips)]);
        mipLevel := mipLevel + 1;
      }
    }

    /** setSize(width, height); on a cube this is the override with its two
        non-fatal checks in front of the base version. */
    method SetSize(width: nat, height: nat) returns (outcome: Outcome)
      modifies this, ctx
      ensures var s := Resized(old(Model()), width, height);
        outcome == s.outcome && Model() == s.tex && ctx.trace == old(ctx.trace) + s.calls
        && ctx.nextName == old(ctx.nextName)
    {
      CheckSize(width, height);
      ghost var checks := ctx.trace[|old(ctx.trace)|..];
      assert ctx.trace == old(ctx.trace) + checks;
      if |data| != 0 {
        ctx.Issue(Alert(FatalMessage, ResizeWithDataMessage));
        AppendAssoc(old(ctx.trace), checks, [Alert(FatalMessage, ResizeWithDataMessage)]);
        return Exited;
      }
      outcome := Continued;
      if width == this.width && height == this.height {
        return;
      }
      this.width := width;
      this.height := height;
      if handle.Some? {
        SizeChanged();
        AppendAssoc(old(ctx.trace), checks, Reallocated(old(Model()).(width := width, height := height)).1);
      }
    }

    /** The cube's checks in front of setSize: data present, width != height. */
    method CheckSize(width: nat, height: nat)
      modifies ctx
      ensures ctx.trace == old(ctx.trace) + SizeChecks(Model(), width, height) && ctx.nextName == old(ctx.nextName)
    {
      if shape == Shape.Cube {
        if |data| != 0 {
          ctx.Issue(Alert(ErrorMessage, CubeWithDataMessage));
        }
        if width != height {
          ctx.Issue(Alert(ErrorMessage, CubeSquareMessage));
        }
      }
    }

    /** setSize(size) of the cube: exactly setSize(size, size). */
    method SetCubeSize(size: nat) returns (outcome: Outcome)
      requires shape == Shape.Cube
      modifies this, ctx
      ensures var s := Resized(old(Model()), size, size);
        outcome == s.outcome && Model() == s.tex && ctx.trace == old(ctx.trace) + s.calls
        && ctx.nextName == old(ctx.nextName)
    {
      outcome := SetSize(size, size);
    }

    /** setSize(width, height, depth) of the 3D texture. */
    method SetSize3D(width: nat, height: nat, depth: nat) returns (outcome: Outcome)
      requires shape == Shape.Volume
      modifies this, ctx
      ensures var s := Resized3D(old(Model()), width, height, depth);
        outcome == s.outcome && Model() == s.tex && ctx.trace == old(ctx.trace) + s.calls
        && ctx.nextName == old(ctx.nextName)
    {
      if |data| != 0 {
        ctx.Issue(Alert(FatalMessage, ResizeWithDataMessage));
        return Exited;
      }
      outcome := Continued;
      if width == this.width && height == this.height && depth == this.depth {
        return;
      }
      this.width := width;
      this.height := height;
      this.depth := depth;
      if handle.Some? {
        SizeChanged();
      }
    }

    /** setTiling */
    method SetTiling(tiling: bool)
      modifies this, ctx
      ensures var s := Retiled(old(Model()), tiling);
        Model() == s.tex && ctx.trace == old(ctx.trace) + s.calls && ctx.nextName == old(ctx.nextName)
    {
      this.tiling := tiling;
      if handle.Some? {
        TilingSet();
      }
    }

    /** generateMipMaps(levels) */
    method GenerateMipMaps(levels: int)
      modifies this, ctx
      ensures var s := WithMipLevels(old(Model()), levels);
        Model() == s.tex && ctx.trace == old(ctx.trace) + s.calls && ctx.nextName == old(ctx.nextName)
    {
      if |data| >= 2 {
        ctx.Issue(Alert(ErrorMessage, MipDataMessage));
      }
      if levels != 0 {
        mipLevels := levels;
      } else {
        mipLevels := MipLevelsFor(width, height);
      }
      if handle.Some? {
        GenerateMipMapsNow();
      }
    }

    /** _read (readFloats / readBytes): size the host buffer for the level, bind
        (which realizes the texture if needed) and download. Returns the number
        of elements allocated. */
    method ReadBack(elements: ReadType, mipLevel: nat) returns (count: nat)
      modifies this, ctx
      ensures count == ReadCount(old(Model()), mipLevel)
      ensures var s := Bound(old(Model()), old(ctx.nextName));
        Model() == s.tex && ctx.nextName == s.next
        && ctx.trace == old(ctx.trace) + s.calls + [GetTexImage(Target(shape), mipLevel, format, elements)]
    {
      var factor := Pow2(mipLevel);
      count := F.Channels(format) * NumPixels(Model(), factor);
      Bind();
      ctx.Issue(GetTexImage(Target(shape), mipLevel, format, elements));
    }

    /** The cube _read: a message-less assert on the level (a debugger trap only),
        then the same sizing and a download from the face's target. */
    method CubeReadBack(elements: ReadType, face: nat, mipLevel: nat) returns (count: nat)
      requires shape == Shape.Cube
      modifies this, ctx
      ensures count == ReadCount(old(Model()), mipLevel)
      ensures var check := if mipLevel < old(mipLevels) then [] else [DebugTrap];
        var s := Bound(old(Model()), old(ctx.nextName));
        Model() == s.tex && ctx.nextName == s.next
        && ctx.trace == old(ctx.trace) + check + s.calls + [GetTexImage(CubeMapFace(face), mipLevel, format, elements)]
    {
      if !(mipLevel < mipLevels) {
        ctx.Issue(DebugTrap);
      }
      var factor := Pow2(mipLevel);
      count := F.Channels(format) * NumPixels(Model(), factor);
      Bind();
      ctx.Issue(GetTexImage(CubeMapFace(face), mipLevel, format, elements));
    }
  }

  /** The `while (tmp >>= 1) ++mipLevels` counter of generateMipMaps(0). */
  method MipLevelsFor(width: nat, height: nat) returns (mipLevels: nat)
    ensures mipLevels == DefaultMipLevels(width, height)
  {
    mipLevels := 1;
    var tmp: nat := if width > height then width else height;
    ghost var big := tmp;
    while tmp / 2 != 0
      invariant mipLevels + Log2Floor(tmp) == 1 + Log2Floor(big)
      decreases tmp
    {
      tmp := tmp / 2;
      mipLevels := mipLevels + 1;
    }
  }
}

=== FILE: wrappers.dfy ===
/** Optional values, shared by every module of the model. */
module Wrappers {
  datatype Option<+T> = None | Some(value: T)
}
